=== FILE: README.md ===
# Consent and telemetry slice of a portfolio site, modelled in Dafny

The site is mostly static markup. Underneath it sits a small client-side
slice with behaviour worth stating:

- a Web Vitals collector that rates samples and keeps a buffer of at most
  50 of them in local storage;
- a performance panel that scores and colours those samples;
- a cookie banner and settings panel that store a three-flag preference
  record and a consent log capped at ten entries;
- a data-rights widget that exports or erases the consent items;
- an analytics gate, plus once-only scroll-depth and time-on-page trackers.

The model is a set of pure functions over immutable values:

- `localStorage` is a `map<string, Stored>`. A stored value is an abstract
  record, not JSON text: a preference record, a consent log, a metrics
  buffer, a plain string, or `Malformed` (text that `JSON.parse` rejects).
- `window` is a `Browser.Window`: the store, whether a global `gtag`
  exists, and a log of what the page did outside itself: the gtag calls
  and HTTP posts it sent, plus a `TrackersStarted` marker where the
  consent branch installs its listeners (that marker is not a network
  call).
- The clock, `navigator.userAgent`, the GA tracking id, the confirmation
  dialog's answer and sink failures are parameters.
- A handler whose JavaScript throws because a stored item does not parse
  returns `None`, or stops where the exception would stop it. A failing
  `localStorage` call itself is modelled only for the metrics buffer
  (see "Left out").

Modules follow the source files:

| module | file |
|---|---|
| `Entities` | the shared records, and `togglePreference` |
| `Browser` | storage keys, stored values, typed getters, output events |
| `Performance` | lib/performance.ts |
| `Monitor` | hooks/usePerformanceMonitor.ts |
| `MonitorView` | components/PerformanceMonitor.tsx |
| `Analytics` | lib/analytics.ts, consent gate and event helpers |
| `Trackers` | lib/analytics.ts, scroll-depth and time-on-page trackers |
| `CookieConsent` | components/CookieConsent.tsx |
| `CookieSettings` | components/CookieSettings.tsx |
| `GdprWidget` | components/GDPRComplianceWidget.tsx |
| `Sequences`, `Wrappers` | generic helpers |

The rating labels do not match across files, and the model keeps that.
The collector writes "needs improvement" with a space. The hook and the
panel compare against "needs-improvement" with a hyphen. So a collected
middle-rated sample scores 50, not 60, and is coloured gray, not yellow.
`Monitor.CollectorRatingNeverScoresSixty` and
`MonitorView.CollectorRatingNeverYellow` prove this.

Behaviour of the code worth knowing, which the model keeps:

- Giving analytics consent is not idempotent. Each call re-runs the
  initialisation, which installs another set of trackers
  (`Analytics.GiveTwiceStartsTrackersTwice`). Each tracker fires a
  threshold at most once, but two installed trackers each fire it.
- Preferences loaded from storage are not checked. A stored record with
  `necessary` false is taken as is (`CookieConsent.Mount`).
  `necessary` stays true only from states where it already holds
  (`CookieConsent.NecessaryStaysTrue`).
- The HTTP post of a metric is issued whatever the consent
  (`Performance.SendToAnalytics`).
- When a stored preference record cannot be parsed, the banner does not
  appear. The defaults stay in memory, and the visitor is not asked
  (`CookieConsent.Mount`).
- When `consent-history` cannot be parsed, `logConsent` throws out of the
  accept/save handler. By then `cookie-consent` has already been written,
  but the analytics flag is untouched and the banner stays
  (`CookieConsent.Commit`).
- Revoking consent does not stop forwarding in the current page, though
  the privacy policy offers to "Withdraw consent at any time"
  (app/privacy-policy/page.tsx:171). `revokeAnalyticsConsent` writes
  "false" and sends the consent update, but removes no installed
  listener and leaves `window.gtag` in place, so installed trackers and
  the Web Vitals gtag call keep sending (`Trackers.RevokeKeepsScrollTracking`,
  `Performance.RevokeKeepsVitalsFlowing`).
- "Delete My Data" does not stop tracking in the current page either. It
  only removes the three consent items: no consent update is sent, and
  `window.gtag` and the installed listeners stay
  (`GdprWidget.EraseKeepsScrollTracking`). Only a later initialisation
  takes the no-consent branch.
- The settings panel reads `cookie-consent` once, when it mounts, and
  keeps its record while closed; Cancel only closes it. Clicks made
  before a Cancel are still in what a later Save writes
  (`CookieSettings.CancelledTogglesCarryOver`), and a Save writes the
  mount-time record over anything stored meanwhile
  (`CookieSettings.StaleRecordOverwrites`).
- An item holding the empty string counts as absent, as
  `getItem(k) || default` and `if (!consent)` treat it (`Browser.Truthy`).

## Model

| member | source | states |
|---|---|---|
| `Entities.TogglePreference` | components/CookieConsent.tsx:119-125 | "necessary" leaves the record unchanged; any other key negates exactly that flag and keeps the other two |
| `Entities.ToggleTwiceRestores` | components/CookieSettings.tsx:37-43 | toggling the same key twice restores the record (both components share this toggle) |
| `Entities.ApplyToggles` | components/CookieConsent.tsx:119-125 | any run of toggles keeps `necessary`, and leaves a category untouched when it is never clicked |
| `Sequences.PushShift` | lib/performance.ts:75-76 | push then one shift: the result is a suffix of old ++ [x], and exactly one element (the oldest) is dropped when the cap is passed |
| `Browser.Truthy` | components/CookieConsent.tsx:44-45 | the truthiness test on `getItem`: an absent item and the empty string are falsy; every other stored value, including text that does not parse, is truthy |
| `Browser.ReadPreferences` | components/CookieConsent.tsx:44-50 | a truthy `cookie-consent` item parses exactly when it holds a preference record, and yields that record |
| `Browser.ReadHistory` | components/CookieConsent.tsx:69-71 | an absent or empty `consent-history` reads as the empty log; otherwise it parses exactly when it holds a log |
| `Browser.ReadMetrics` | lib/performance.ts:72-74 | an absent or empty `performance-metrics` reads as the empty buffer; otherwise it parses exactly when it holds a buffer |
| `Performance.GetPerformanceRating` | lib/performance.ts:17-28 | CLS: good below 0.1, needs improvement in [0.1, 0.25), poor from 0.25; LCP uses 2500/4000 and FID 100/300 the same way; every other name is "unknown" |
| `Performance.RatingMonotone` | lib/performance.ts:17-28 | for a fixed name, a larger value never gets a better rating |
| `Performance.BuildMetric` | lib/performance.ts:31-38 | name, value and id are copied; the rating is the name/value rating; the navigation type defaults to "navigate" when absent or empty |
| `Performance.StoreMetric` | lib/performance.ts:70-85 | only `performance-metrics` changes; an unparsable buffer or a failed write leaves storage as it was; otherwise the buffer is push-then-shift at 50 |
| `Performance.MetricBufferFifo` | lib/performance.ts:72-77 | a buffer of at most 50 stays at most 50 with the new metric last; below 50 it grows by one; at 50 exactly the oldest is dropped, order kept |
| `Performance.SendToAnalytics` | lib/performance.ts:30-86 | never fails; the gtag call happens exactly when gtag exists and does not throw; the HTTP post is always the last event; storage changes as `StoreMetric` says |
| `Performance.RevokeKeepsVitalsFlowing` | lib/performance.ts:30-54 | after a revoke with gtag loaded, the flag is off yet the next sample's Web Vitals gtag call is still made |
| `Monitor.MetricScore` | hooks/usePerformanceMonitor.ts:26-37 | 100/60/20 exactly for "good"/"needs-improvement"/"poor", 50 for every other label |
| `Monitor.SumScores` | hooks/usePerformanceMonitor.ts:38-39 | the sum of n per-metric scores lies between 20n and 100n |
| `Monitor.RoundedMean` | hooks/usePerformanceMonitor.ts:38-40 | `Math.round(sum / n)`: r - 1/2 <= sum/n < r + 1/2, halves rounding up |
| `Monitor.CalculatePerformanceScore` | hooks/usePerformanceMonitor.ts:19-43 | an empty list scores 0; otherwise the score is `Math.round` of the mean points of the newest five (the sum `s` of their points over their count `n` satisfies r - 1/2 <= s/n < r + 1/2), and so lies between 20 and 100 |
| `Monitor.ScoreIgnoresOlderMetrics` | hooks/usePerformanceMonitor.ts:25 | only the newest five metrics matter: any older prefix can be replaced without changing the score |
| `Monitor.CollectorRatingNeverScoresSixty` | hooks/usePerformanceMonitor.ts:30-31 | no rating from the collector ever scores 60; its "needs improvement" scores 50 |
| `Monitor.GetMetricsByType` | hooks/usePerformanceMonitor.ts:46-49 | every result has the name, comes from the list, and every metric with the name is included |
| `Monitor.MetricsByTypeOfAppend` | hooks/usePerformanceMonitor.ts:46-49 | the filter distributes over concatenation, so it keeps the original order |
| `Monitor.GetLatestMetric` | hooks/usePerformanceMonitor.ts:52-58 | a returned metric carries the name and comes from the list |
| `Monitor.LatestIsLastOfName` | hooks/usePerformanceMonitor.ts:52-58 | the result equals an independent backward scan for the last index with that name; it is null exactly when no metric has the name |
| `Monitor.MessagesDistinct` | hooks/usePerformanceMonitor.ts:67-88 | the five message texts are pairwise different |
| `Monitor.Found` | hooks/usePerformanceMonitor.ts:67-86 | the four conditional pushes: each advice is present exactly when its check fires, one entry per firing check, and never "looks good" |
| `Monitor.FoundRanked` | hooks/usePerformanceMonitor.ts:67-86 | the pushed advice is in check order (LCP, FID, CLS, budget), each at most once |
| `Monitor.InsightList` | hooks/usePerformanceMonitor.ts:67-90 | given which checks fire: never empty, each advice present exactly when its check fires, in check order without repeats, one per firing check; "looks good" only alone and exactly when nothing fires |
| `Monitor.PerformanceInsights` | hooks/usePerformanceMonitor.ts:61-91 | one advice per latest LCP/FID/CLS rated "poor" and one for an exceeded budget, in that order, each at most once; the single "looks good" exactly when none applies |
| `Monitor.GetPerformanceInsights` | hooks/usePerformanceMonitor.ts:61-91 | the returned strings are the texts of those insights, one for one and in the same order |
| `Monitor.ShownExactlyWhenReported` | hooks/usePerformanceMonitor.ts:61-91 | a message text appears in the returned list exactly when its insight is reported |
| `Monitor.LoadMetrics` | hooks/usePerformanceMonitor.ts:99-110 | a stored buffer that parses becomes the metrics with their score; an absent or unparsable one keeps the empty start state |
| `Monitor.OnStorageChange` | hooks/usePerformanceMonitor.ts:116-126 | only a non-empty new value of the metrics key that parses replaces the metrics and score; anything else changes nothing |
| `Monitor.MonitorStaysConsistent` | hooks/usePerformanceMonitor.ts:99-126 | after loading and after any storage event, the shown score is the score of the shown metrics |
| `MonitorView.GetScoreColor` | components/PerformanceMonitor.tsx:55-59 | green exactly from 90, yellow exactly for 70 to 89, red exactly below 70 |
| `MonitorView.ScoreColorMonotone` | components/PerformanceMonitor.tsx:55-59 | a higher score never gets a worse colour |
| `MonitorView.GetMetricColor` | components/PerformanceMonitor.tsx:61-72 | green/yellow/red exactly for "good"/"needs-improvement"/"poor", gray for everything else |
| `MonitorView.CollectorRatingNeverYellow` | components/PerformanceMonitor.tsx:61-72 | no collector rating is shown yellow; "needs improvement" and "unknown" are gray |
| `MonitorView.UnitIndex` | components/PerformanceMonitor.tsx:77-78 | the unit index i satisfies 1024^i <= bytes < 1024^(i+1) |
| `MonitorView.FormatBytes` | components/PerformanceMonitor.tsx:74-80 | zero is exactly "0 B"; unit B/KB/MB/GB exactly for its power-of-1024 range; from 1024^4 bytes the unit is undefined |
| `MonitorView.RecentMetrics` | components/PerformanceMonitor.tsx:290-293 | min(10, n) entries, entry i being the (i+1)-th newest metric |
| `Analytics.HasConsent` | lib/analytics.ts:201-203 | the gate opens exactly when the flag item holds the text "true"; a "false" flag, other text or no item keeps it closed |
| `Analytics.InitGA` | lib/analytics.ts:7-33 | without a tracking id nothing happens; with one, gtag exists afterwards and the loading call is logged |
| `Analytics.InitPrivacyCompliantAnalytics` | lib/analytics.ts:200-214 | without the flag being exactly "true" the window is unchanged; with it, storage is untouched and the trackers are started last |
| `Analytics.GiveAnalyticsConsent` | lib/analytics.ts:216-219 | the flag is "true" afterwards, no other item changes, and the initialisation takes the consent branch |
| `Analytics.RevokeAnalyticsConsent` | lib/analytics.ts:221-229 | the flag is "false", no other item changes, and the consent update is sent exactly when gtag exists |
| `Analytics.RevokeThenInitIsInert` | lib/analytics.ts:200-229 | after a revoke, initialisation does nothing |
| `Analytics.GiveTwiceStartsTrackersTwice` | lib/analytics.ts:216-219 | a second give leaves storage as the first left it but starts the trackers again |
| `Analytics.GateFollowsLastCall` | lib/analytics.ts:216-229 | after any non-empty run of gives and revokes, consent holds exactly when the last call was a give, and only the flag item has changed |
| `Analytics.TrackEvent` | lib/analytics.ts:44-57 | without gtag the window is unchanged; with it exactly one event with the given fields is appended |
| `Analytics.TrackPageView` | lib/analytics.ts:35-42 | nothing without gtag or without a tracking id; otherwise one page-view call with the id and the url, titled by the given non-empty title or else the document title |
| `Analytics.PageViewsFollowConsent` | lib/analytics.ts:35-42 | starting without gtag, page views are dropped unless consent initialised analytics with a tracking id, and then one is sent |
| `Analytics.TrackFormSubmission` | lib/analytics.ts:63-65 | a "form_submit" event with value 1 on success and 0 otherwise, only when gtag exists |
| `Trackers.Fire` | lib/analytics.ts:91-96 | fired marks are distinct, come from the list, are at most the level and were not tracked; afterwards every mark at most the level is tracked |
| `Trackers.EmitMarks` | lib/analytics.ts:94 | one `trackEvent` per fired mark, in order, with label "<mark><unit>" and the mark as value; nothing without gtag |
| `Trackers.OnScroll` | lib/analytics.ts:82-98 | the maximum never decreases; a non-increasing percentage changes nothing; a new maximum p tracks every threshold at most p, firing only untracked ones once |
| `Trackers.Announce` | lib/analytics.ts:91-96 | for a duplicate-free batch of newly reached marks, only the log grows, by exactly one event per newly tracked mark, and each such mark is announced |
| `Trackers.HandleScroll` | lib/analytics.ts:82-98 | storage is untouched; with gtag loaded the log keeps its past and grows by exactly one event per newly tracked threshold, each announcing its threshold with a "%" label; without gtag nothing changes |
| `Trackers.RevokeKeepsScrollTracking` | lib/analytics.ts:221-229 | after a revoke with gtag loaded, the flag is off yet scrolling still logs one event per newly tracked threshold |
| `Trackers.ScrollFiresEachThresholdOnce` | lib/analytics.ts:75-102 | over any run of scroll events, no threshold fires twice, and the tracked set is always the thresholds at most the maximum |
| `Trackers.CheckTime` | lib/analytics.ts:111-119 | after a check at t every interval at most t is tracked; fired intervals are distinct and were untracked |
| `Trackers.HandleTimeCheck` | lib/analytics.ts:111-119 | storage is untouched; with gtag loaded the log grows by exactly one event per newly tracked interval, each announcing its interval with an "s" label |
| `Trackers.TimeFiresEachIntervalOnce` | lib/analytics.ts:104-121 | over any run of checks, no interval fires twice, and every interval at most some checked time is tracked |
| `CookieConsent.Mount` | components/CookieConsent.tsx:43-58 | no item: defaults and the banner; a parsable record is taken unchecked and consent is given exactly when its analytics flag is set; an unparsable one keeps the defaults with no banner |
| `CookieConsent.NewRecord` | components/CookieConsent.tsx:61-67 | the record carries the new preferences, the clock and the user agent |
| `CookieConsent.LogConsent` | components/CookieConsent.tsx:60-77 | fails exactly when the log does not parse; otherwise only the log changes: at most ten entries, the new record last, the rest the newest older entries in order |
| `CookieConsent.Gate` | components/CookieConsent.tsx:110-114 | only the analytics flag changes; consent holds afterwards exactly when `analytics` is set, and otherwise the flag reads `"false"` |
| `CookieConsent.Commit` | components/CookieConsent.tsx:79-117 | stored and in-memory preferences are equal; only the three consent items change; with a readable log one record is appended, the flag mirrors `analytics` and the banner closes; otherwise the handler stops after the write |
| `CookieConsent.AcceptAll` | components/CookieConsent.tsx:79-91 | stores all three flags true, appends one record, and sets the flag to "true" |
| `CookieConsent.AcceptNecessary` | components/CookieConsent.tsx:93-105 | stores necessary only, appends one record, and sets the flag to "false" |
| `CookieConsent.SavePreferences` | components/CookieConsent.tsx:107-117 | stores the in-memory record, and the flag mirrors its analytics flag |
| `CookieConsent.Toggle` | components/CookieConsent.tsx:119-125 | a switch changes only the in-memory record, never the page |
| `CookieConsent.CommitKeepsNecessary` | components/CookieConsent.tsx:79-117 | a decision whose preferences keep `necessary` leaves it true in memory, in the stored record and in every logged snapshot |
| `CookieConsent.StepKeepsNecessary` | components/CookieConsent.tsx:79-125 | one toggle, accept or save keeps `necessary` true in memory, in the stored record and in every logged snapshot |
| `CookieConsent.NecessaryStaysTrue` | components/CookieConsent.tsx:79-125 | from a state where `necessary` holds everywhere, no sequence of toggles, accepts and saves clears it |
| `CookieConsent.FirstVisitDiffersFromNecessaryOnly` | components/CookieConsent.tsx:43-105 | a first visit and a necessary-only decision have the same record, but only the decision is logged and suppresses the banner on the next mount |
| `CookieSettings.LoadSettings` | components/CookieSettings.tsx:21-30 | a parsable stored record replaces the defaults; an absent or malformed one keeps them |
| `CookieSettings.SaveSettings` | components/CookieSettings.tsx:32-35 | only `cookie-consent` is written; the log and the analytics flag are untouched |
| `CookieSettings.MountPanel` | components/CookieSettings.tsx:15-30 | the panel starts from the stored record when it parses and from the defaults otherwise |
| `CookieSettings.OpenPanel` | components/CookieSettings.tsx:32-114 | clicks change the panel's record in memory, never `necessary`, and only the clicked categories; Cancel persists nothing; Save writes the panel's record to `cookie-consent` only |
| `CookieSettings.PanelRun` | components/CookieSettings.tsx:21-114 | over any run of openings of one mounted panel, the record is the loaded one with every click applied, cancelled ones included; only `cookie-consent` can change; nothing changes without a Save; after a final Save the stored record is the panel's |
| `CookieSettings.SettingsSession` | components/CookieSettings.tsx:21-114 | first opening after mount: Cancel persists nothing; Save writes the loaded record with the clicks applied to `cookie-consent` only |
| `CookieSettings.SavedNecessaryFollowsLoaded` | components/CookieSettings.tsx:14-43 | a save keeps the loaded `necessary` flag whatever was toggled, so it is true after a first visit |
| `CookieSettings.CancelledTogglesCarryOver` | components/CookieSettings.tsx:21-114 | a Cancel does not undo: a Save in a later opening writes the loaded record with the cancelled clicks and the new ones applied |
| `CookieSettings.CancelledToggleIsSaved` | components/CookieSettings.tsx:37-114 | toggle analytics, Cancel, reopen and Save: the saved analytics flag is the opposite of the loaded one |
| `CookieSettings.StaleRecordOverwrites` | components/CookieSettings.tsx:21-35 | a Save writes the mount-time record with the clicks applied, whatever was stored since, and keeps the analytics flag as it now is |
| `GdprWidget.MountWidget` | components/GDPRComplianceWidget.tsx:12-16 | shows the stored log, an empty one when absent, and fails when the log does not parse |
| `GdprWidget.ExportMyData` | components/GDPRComplianceWidget.tsx:18-25 | the export carries the widget's log and the fixed controller fields; preferences are `{}` when absent, the stored record when it parses, and the export fails otherwise |
| `GdprWidget.DeleteMyData` | components/GDPRComplianceWidget.tsx:40-52 | declined: nothing changes; confirmed: the three consent items are gone and the shown log is empty; every other item is unchanged |
| `GdprWidget.EraseLooksLikeFirstVisit` | components/GDPRComplianceWidget.tsx:46-49 | after an erase the banner asks again with defaults, settings load defaults, the log is empty, a later initialisation takes the no-consent branch, and the metrics buffer is kept |
| `GdprWidget.EraseKeepsScrollTracking` | components/GDPRComplianceWidget.tsx:40-52 | after a confirmed erase with gtag loaded, the flag reads as off, yet scrolling still logs one event per newly tracked threshold |
| `GdprWidget.ExportAfterEraseIsEmpty` | components/GDPRComplianceWidget.tsx:18-52 | an export after a confirmed erase has an empty history and `{}` preferences |
| `GdprWidget.ManageCookies` | components/GDPRComplianceWidget.tsx:117-124 | only `cookie-consent` is removed |
| `GdprWidget.ManageCookiesKeepsHistoryAndFlag` | components/GDPRComplianceWidget.tsx:117-124 | after the reload the banner shows, while the log and the analytics flag survive |

## Left out

- JSON text: stored values are abstract records. A value that parses to a
  shape other than the one a reader expects (for example a metrics array
  stored under `consent-history`) is treated like a parse failure. In
  JavaScript some of these would be accepted.
- Timers: the 2-second banner delay, the 10-second `setInterval` of the
  time tracker, and the `beforeunload` session-duration event are left
  out. The tracker takes the whole seconds spent as input.
- The DOM: the scroll percentage is an integer input, not computed from
  page offsets. A `NaN` percentage (a zero-height document) is not
  modelled.
- Floating point: `Math.round(CLS * 1000)` in the gtag payloads,
  `formatTime`, and the one-decimal number of `formatBytes` are left out.
  `NaN` samples are not modelled either.
- MonitorView.UnitIndex: computes floor(log_1024 n) exactly. The source
  computes it in floating point, which may be off at exact powers of 1024.
- Analytics.InitPrivacyCompliantAnalytics: the four trackers it installs
  are one `TrackersStarted` event. The immediate theme, device and
  connection events of `trackUserPreferences` read browser globals and
  are not modelled.
- `trackInteraction`, `trackDownload`, `trackExternalLink`: one-line
  calls of `trackEvent` with fixed category strings. Their only logic is
  the gtag guard, which `Analytics.TrackEvent` models.
- Storage failures outside the metrics buffer: `setItem` of
  `cookie-consent` (components/CookieConsent.tsx:86, 100, 108;
  components/CookieSettings.tsx:33), of `consent-history`
  (components/CookieConsent.tsx:72-75) and of `analytics-consent`
  (lib/analytics.ts:217, 222), and every `getItem`, are assumed to
  succeed. A quota error or disabled storage would throw out of those
  handlers and effects; only the metrics buffer's write, whose failure
  the source catches, takes a failure parameter.
- Where the settings panel is rendered, and so when it mounts and
  unmounts, is not part of this model. `CookieSettings.PanelRun` covers
  the openings of one mount; a remount starts again from `MountPanel`.
- The dynamic `web-vitals` import and its `sendToGA4` callback are browser
  plumbing.
- The React rendering, the animation, and the 'alert'/'console' output
  are presentation.
- Monitor: `budgetStatus` is an input. The hook never sets it, so it is
  null in practice.
- Server-side rendering guards (`typeof window === "undefined"`): the
  model always runs in a browser.
- The "Download" file creation (Blob, object URL, anchor click) is left
  out; only the exported record is modelled.
- Cross-tab and concurrent writes: the model is one sequence of calls.

=== FILE: analytics.dfy ===
/** The consent gate of lib/analytics.ts: tracking is initialised only when
    the `analytics-consent` item is exactly "true"; giving and revoking
    consent write that item. Event helpers are no-ops without gtag. */
module Analytics {
  import opened Wrappers
  import opened Browser

  /** `localStorage.getItem("analytics-consent") === "true"`: a strict
      comparison, so only the exact text "true" opens the gate; the
      "false" that a revoke writes, any other text and an absent item
      keep it closed. */
  function HasConsent(s: Storage): (b: bool)
    ensures b <==> StoredAs(s, AnalyticsConsentKey, Text("true"))
    ensures b ==> Truthy(s, AnalyticsConsentKey)
    ensures StoredAs(s, AnalyticsConsentKey, Text("false")) ==> !b
  {
    AnalyticsConsentKey in s && s[AnalyticsConsentKey] == Text("true")
  }

  /** `initGA`: nothing without a tracking id (the empty string stands for
      an unset `NEXT_PUBLIC_GA_ID`); otherwise gtag is installed and the
      script and configuration calls are issued. */
  function InitGA(w: Window, gaId: string): (r: Window)
    ensures r.store == w.store
    ensures gaId == "" ==> r == w
    ensures gaId != "" ==> r.gtag && r.log == w.log + [GtagLoaded(gaId)]
  {
    if gaId == "" then w else Window(w.store, true, w.log + [GtagLoaded(gaId)])
  }

  /** `initPrivacyCompliantAnalytics`. With consent: `initGA`, then the
      trackers are installed. Without: nothing but a console line. */
  function InitPrivacyCompliantAnalytics(w: Window, gaId: string): (r: Window)
    ensures !HasConsent(w.store) ==> r == w
    ensures HasConsent(w.store) ==>
      && r.store == w.store
      && |r.log| > |w.log| && r.log[..|w.log|] == w.log
      && r.log[|r.log| - 1] == TrackersStarted
      && (gaId != "" ==> r.gtag)
      && (gaId == "" ==> r.gtag == w.gtag)
  {
    if HasConsent(w.store) then
      var ga := InitGA(w, gaId);
      ga.(log := ga.log + [TrackersStarted])
    else w
  }

  /** `giveAnalyticsConsent`: the flag is written first, so the following
      initialisation always takes the consent branch. */
  function GiveAnalyticsConsent(w: Window, gaId: string): (r: Window)
    ensures HasConsent(r.store)
    ensures SameExcept(w.store, r.store, {AnalyticsConsentKey})
    ensures |r.log| > |w.log| && r.log[..|w.log|] == w.log
    ensures r.log[|r.log| - 1] == TrackersStarted
  {
    InitPrivacyCompliantAnalytics(w.(store := w.store[AnalyticsConsentKey := Text("true")]), gaId)
  }

  /** `revokeAnalyticsConsent`: the flag becomes "false"; the consent
      update is sent only when gtag exists. */
  function RevokeAnalyticsConsent(w: Window): (r: Window)
    ensures !HasConsent(r.store)
    ensures AnalyticsConsentKey in r.store && r.store[AnalyticsConsentKey] == Text("false")
    ensures SameExcept(w.store, r.store, {AnalyticsConsentKey})
    ensures r.gtag == w.gtag
    ensures w.gtag ==> r.log == w.log + [ConsentDenied]
    ensures !w.gtag ==> r.log == w.log
  {
    var store := w.store[AnalyticsConsentKey := Text("false")];
    if w.gtag then Window(store, true, w.log + [ConsentDenied]) else w.(store := store)
  }

  /** After a revoke, a later initialisation (the next page load) does
      nothing at all. */
  lemma RevokeThenInitIsInert(w: Window, gaId: string)
    ensures var revoked := RevokeAnalyticsConsent(w);
            InitPrivacyCompliantAnalytics(revoked, gaId) == revoked
  {
  }

  /** Giving consent twice re-runs the initialisation: the flag is the same
      but a second set of trackers is installed. */
  lemma GiveTwiceStartsTrackersTwice(w: Window, gaId: string)
    ensures var once := GiveAnalyticsConsent(w, gaId);
            var twice := GiveAnalyticsConsent(once, gaId);
            && twice.store == once.store
            && |twice.log| > |once.log|
            && twice.log[|twice.log| - 1] == TrackersStarted
  {
  }

  /** A run of consent calls: `true` gives, `false` revokes. */
  function ApplyConsentCalls(w: Window, calls: seq<bool>, gaId: string): (r: Window)
    decreases |calls|
  {
    if calls == [] then w
    else
      var next := if calls[0] then GiveAnalyticsConsent(w, gaId) else RevokeAnalyticsConsent(w);
      ApplyConsentCalls(next, calls[1..], gaId)
  }

  /** The gate follows the last call of any non-empty run, and no other
      stored item changes. */
  lemma {:induction false} GateFollowsLastCall(w: Window, calls: seq<bool>, gaId: string)
    requires |calls| > 0
    ensures HasConsent(ApplyConsentCalls(w, calls, gaId).store) <==> calls[|calls| - 1]
    ensures SameExcept(w.store, ApplyConsentCalls(w, calls, gaId).store, {AnalyticsConsentKey})
    decreases |calls|
  {
    var next := if calls[0] then GiveAnalyticsConsent(w, gaId) else RevokeAnalyticsConsent(w);
    if |calls| > 1 {
      GateFollowsLastCall(next, calls[1..], gaId);
      assert calls[1..][|calls[1..]| - 1] == calls[|calls| - 1];
    }
  }

  /** `trackEvent`: a no-op without gtag. */
  function TrackEvent(w: Window, action: string, category: string, eventLabel: Option<string>, value: Option<int>): (r: Window)
    ensures r.store == w.store && r.gtag == w.gtag
    ensures !w.gtag ==> r == w
    ensures w.gtag ==> r.log == w.log + [GtagEvent(action, category, eventLabel, value)]
  {
    if w.gtag then w.(log := w.log + [GtagEvent(action, category, eventLabel, value)]) else w
  }

  /** `trackPageView`: nothing without gtag or without a tracking id (the
      empty string stands for an unset id); otherwise one page-view
      configuration call. The page title is the given one, or the
      document's when none or an empty one is given (`title ||
      document.title`). */
  function TrackPageView(w: Window, gaId: string, url: string, title: Option<string>, documentTitle: string): (r: Window)
    ensures r.store == w.store && r.gtag == w.gtag
    ensures !w.gtag || gaId == "" ==> r == w
    ensures w.gtag && gaId != "" ==> |r.log| == |w.log| + 1 && r.log[..|w.log|] == w.log
    ensures w.gtag && gaId != "" ==>
      && r.log[|w.log|].PageViewConfig?
      && r.log[|w.log|].trackingId == gaId
      && r.log[|w.log|].pageLocation == url
    ensures w.gtag && gaId != "" && title.Some? && title.value != "" ==> r.log[|w.log|].pageTitle == title.value
    ensures w.gtag && gaId != "" && (title.None? || title == Some("")) ==> r.log[|w.log|].pageTitle == documentTitle
  {
    if !w.gtag || gaId == "" then w
    else
      var pageTitle := if title.Some? && title.value != "" then title.value else documentTitle;
      w.(log := w.log + [PageViewConfig(gaId, pageTitle, url)])
  }

  /** Page views are recorded only once analytics has been initialised:
      before consent (no gtag) they are dropped, and after a consented
      initialisation with a tracking id each one is sent. */
  lemma PageViewsFollowConsent(w: Window, gaId: string, url: string, title: Option<string>, documentTitle: string)
    requires !w.gtag
    ensures !HasConsent(w.store) ==>
      TrackPageView(InitPrivacyCompliantAnalytics(w, gaId), gaId, url, title, documentTitle) == w
    ensures HasConsent(w.store) && gaId != "" ==>
      var i := InitPrivacyCompliantAnalytics(w, gaId);
      |TrackPageView(i, gaId, url, title, documentTitle).log| == |i.log| + 1
  {
  }

  /** `trackFormSubmission`: value 1 for a success, 0 otherwise. */
  function TrackFormSubmission(w: Window, formName: string, success: bool): (r: Window)
    ensures !w.gtag ==> r == w
    ensures w.gtag ==> |r.log| == |w.log| + 1 && r.log[..|w.log|] == w.log
    ensures w.gtag ==> r.log[|w.log|].GtagEvent? && r.log[|w.log|].action == "form_submit"
    ensures w.gtag ==> r.log[|w.log|].value == Some(if success then 1 else 0)
  {
    TrackEvent(w, "form_submit", "Form", Some(formName), Some(if success then 1 else 0))
  }
}

=== FILE: browser.dfy ===
/** The browser as the consent and telemetry code sees it: a string-keyed
    store standing in for `localStorage`, whether a global `gtag` function
    exists, and a log of the gtag calls and HTTP posts the page sent, with
    a marker where listeners were installed. */
module Browser {
  import opened Wrappers
  import opened Entities

  const CookieConsentKey: string := "cookie-consent"
  const ConsentHistoryKey: string := "consent-history"
  const AnalyticsConsentKey: string := "analytics-consent"
  const PerformanceMetricsKey: string := "performance-metrics"

  /** A stored value. JSON text is kept abstract: a value that parses to
      one of the shapes the code writes is that shape; `Malformed` is text
      `JSON.parse` rejects; `Text` is a plain string such as the
      `analytics-consent` flag. */
  datatype Stored =
    | Malformed
    | Text(text: string)
    | PrefsValue(prefs: Preferences)
    | HistoryValue(records: seq<ConsentRecord>)
    | MetricsValue(metrics: seq<PerformanceMetric>)

  type Storage = map<string, Stored>

  /** `localStorage.getItem(key)` is truthy. An absent item reads as `null`
      and the empty string is falsy; every other stored value, including
      text that does not parse, is truthy. */
  function Truthy(s: Storage, key: string): (b: bool)
    ensures key !in s ==> !b
    ensures StoredAs(s, key, Text("")) ==> !b
    ensures key in s && s[key] != Text("") ==> b
  {
    key in s && s[key] != Text("")
  }

  /** `key` is present and holds `v`. */
  predicate StoredAs(s: Storage, key: string, v: Stored)
  {
    key in s && s[key] == v
  }

  /** `s` and `t` agree on every key outside `changed`. */
  ghost predicate SameExcept(s: Storage, t: Storage, changed: set<string>)
  {
    forall k :: k !in changed ==> (k in s <==> k in t) && (k in s ==> s[k] == t[k])
  }

  /** `JSON.parse(getItem("cookie-consent"))` when the item is truthy:
      `None` when it does not parse to a preference record. */
  function ReadPreferences(s: Storage): (r: Option<Preferences>)
    requires Truthy(s, CookieConsentKey)
    ensures r.Some? <==> s[CookieConsentKey].PrefsValue?
    ensures r.Some? ==> r.value == s[CookieConsentKey].prefs
  {
    match s[CookieConsentKey]
    case PrefsValue(p) => Some(p)
    case _ => None
  }

  /** `JSON.parse(getItem("consent-history") || "[]")`: an absent or empty
      item reads as the empty log, `None` stands for the exception. */
  function ReadHistory(s: Storage): (r: Option<seq<ConsentRecord>>)
    ensures !Truthy(s, ConsentHistoryKey) ==> r == Some([])
    ensures Truthy(s, ConsentHistoryKey) ==> (r.Some? <==> s[ConsentHistoryKey].HistoryValue?)
    ensures Truthy(s, ConsentHistoryKey) && r.Some? ==> r.value == s[ConsentHistoryKey].records
  {
    if !Truthy(s, ConsentHistoryKey) then Some([])
    else match s[ConsentHistoryKey]
      case HistoryValue(h) => Some(h)
      case _ => None
  }

  /** `JSON.parse(getItem("performance-metrics") || "[]")`. */
  function ReadMetrics(s: Storage): (r: Option<seq<PerformanceMetric>>)
    ensures !Truthy(s, PerformanceMetricsKey) ==> r == Some([])
    ensures Truthy(s, PerformanceMetricsKey) ==> (r.Some? <==> s[PerformanceMetricsKey].MetricsValue?)
    ensures Truthy(s, PerformanceMetricsKey) && r.Some? ==> r.value == s[PerformanceMetricsKey].metrics
  {
    if !Truthy(s, PerformanceMetricsKey) then Some([])
    else match s[PerformanceMetricsKey]
      case MetricsValue(ms) => Some(ms)
      case _ => None
  }

  /** Something the page sent out, or (`TrackersStarted`) a marker that
      listeners were installed, which sends nothing by itself. */
  datatype Event =
      /** `initGA`: script tag added, `gtag("js")` and `gtag("config", id)`. */
    | GtagLoaded(trackingId: string)
      /** `trackPageView`: `gtag("config", id, {page_title, page_location})`. */
    | PageViewConfig(trackingId: string, pageTitle: string, pageLocation: string)
      /** `trackEvent`: `gtag("event", action, {category, label, value})`. */
    | GtagEvent(action: string, category: string, eventLabel: Option<string>, value: Option<int>)
      /** The Web Vitals `gtag("event", name, ...)` call of `sendToAnalytics`. */
    | VitalSent(name: string, id: string, rating: string)
      /** `gtag("consent", "update", {analytics_storage: "denied", ...})`. */
    | ConsentDenied
      /** The performance, scroll, time-on-page and preference trackers
          installed by the consent branch of initialisation: a marker for
          the listeners, not a network call. */
    | TrackersStarted
      /** `POST /api/analytics/performance` with the metric as body. */
    | MetricPosted(metric: PerformanceMetric)

  datatype Window = Window(store: Storage, gtag: bool, log: seq<Event>)
}

=== FILE: cookie_consent.dfy ===
/** The cookie banner (components/CookieConsent.tsx): loads a stored
    decision on mount, and on "Accept All", "Necessary Only" or "Save"
    stores the preference record, appends a consent record to a history
    capped at ten, and gives or revokes analytics consent. */
module CookieConsent {
  import opened Wrappers
  import opened Sequences
  import opened Entities
  import opened Browser
  import Analytics

  /** Capacity of the `consent-history` log (`slice(-10)`). */
  const HistoryCap: nat := 10

  /** The component's own state. */
  datatype Banner = Banner(prefs: Preferences, showBanner: bool, showSettings: bool)

  const BannerStart := Banner(DefaultPreferences, false, false)

  /** The component together with the page it runs in. */
  datatype Session = Session(ui: Banner, win: Window)

  /** Inputs the handlers read from the environment: the clock as an ISO
      string, `navigator.userAgent`, and the GA tracking id ("" = unset). */
  datatype Env = Env(now: string, userAgent: string, gaId: string)

  /** The mount effect. No truthy item: defaults and the banner (shown
      after a 2 s timer). A record that parses: taken as is, without
      checking `necessary`, and consent is given when its `analytics` flag
      is set. Anything else: the parse error is caught, defaults stay and
      no banner appears. */
  function Mount(w: Window, gaId: string): (r: Session)
    ensures !Truthy(w.store, CookieConsentKey) ==>
      r.ui == BannerStart.(showBanner := true) && r.win == w
    ensures Truthy(w.store, CookieConsentKey) ==> !r.ui.showBanner && !r.ui.showSettings
    ensures Truthy(w.store, CookieConsentKey) && ReadPreferences(w.store).None? ==>
      r.ui == BannerStart && r.win == w
    ensures Truthy(w.store, CookieConsentKey) && ReadPreferences(w.store).Some? ==>
      && r.ui.prefs == ReadPreferences(w.store).value
      && (r.ui.prefs.analytics ==> r.win == Analytics.GiveAnalyticsConsent(w, gaId))
      && (!r.ui.prefs.analytics ==> r.win == w)
  {
    if !Truthy(w.store, CookieConsentKey) then Session(BannerStart.(showBanner := true), w)
    else match ReadPreferences(w.store)
      case None => Session(BannerStart, w)
      case Some(p) =>
        Session(BannerStart.(prefs := p), if p.analytics then Analytics.GiveAnalyticsConsent(w, gaId) else w)
  }

  /** The record `logConsent` appends. */
  function NewRecord(p: Preferences, env: Env): (r: ConsentRecord)
    ensures r.preferences == p && r.timestamp == env.now && r.userAgent == env.userAgent
  {
    ConsentRecord(env.now, p, "1.0", env.userAgent, "hashed_for_privacy")
  }

  /** `after` is `before` with `rec` appended and the oldest entries
      dropped past the cap: the new record is last, and the rest is the
      newest part of `before` in its original order. */
  ghost predicate AppendedCapped(before: seq<ConsentRecord>, after: seq<ConsentRecord>, rec: ConsentRecord)
  {
    && |after| == (if |before| + 1 > HistoryCap then HistoryCap else |before| + 1)
    && after[|after| - 1] == rec
    && after[..|after| - 1] == before[|before| - (|after| - 1)..]
  }

  /** `logConsent`: `None` when the stored history does not parse, in which
      case the exception escapes to the calling handler. */
  function LogConsent(s: Storage, p: Preferences, env: Env): (r: Option<Storage>)
    ensures r.None? <==> ReadHistory(s).None?
    ensures r.Some? ==> SameExcept(s, r.value, {ConsentHistoryKey})
    ensures r.Some? ==> ReadHistory(r.value).Some?
    ensures r.Some? ==> AppendedCapped(ReadHistory(s).value, ReadHistory(r.value).value, NewRecord(p, env))
  {
    match ReadHistory(s)
    case None => None
    case Some(h) =>
      var after := Last(h + [NewRecord(p, env)], HistoryCap);
      assert after[..|after| - 1] == h[|h| - (|after| - 1)..];
      Some(s[ConsentHistoryKey := HistoryValue(after)])
  }

  /** The consent call at the end of each decision handler: give when
      `analytics` is set, revoke otherwise. */
  function Gate(w: Window, p: Preferences, gaId: string): (r: Window)
    ensures SameExcept(w.store, r.store, {AnalyticsConsentKey})
    ensures Analytics.HasConsent(r.store) <==> p.analytics
    ensures !p.analytics ==> StoredAs(r.store, AnalyticsConsentKey, Text("false"))
  {
    if p.analytics then Analytics.GiveAnalyticsConsent(w, gaId) else Analytics.RevokeAnalyticsConsent(w)
  }

  /** The common tail of the three decision handlers: in-memory and stored
      preferences set to `p`, the decision logged, consent given when
      `p.analytics` and revoked otherwise, banner and settings closed. When
      `logConsent` throws, everything after it is skipped. */
  function Commit(ss: Session, p: Preferences, env: Env): (r: Session)
    ensures r.ui.prefs == p
    ensures StoredAs(r.win.store, CookieConsentKey, PrefsValue(p))
    ensures SameExcept(ss.win.store, r.win.store, {CookieConsentKey, ConsentHistoryKey, AnalyticsConsentKey})
    ensures ReadHistory(ss.win.store).None? ==>
      && r.win == ss.win.(store := ss.win.store[CookieConsentKey := PrefsValue(p)])
      && r.ui == ss.ui.(prefs := p)
    ensures ReadHistory(ss.win.store).Some? ==>
      && ReadHistory(r.win.store).Some?
      && AppendedCapped(ReadHistory(ss.win.store).value, ReadHistory(r.win.store).value, NewRecord(p, env))
      && (Analytics.HasConsent(r.win.store) <==> p.analytics)
      && (!p.analytics ==> StoredAs(r.win.store, AnalyticsConsentKey, Text("false")))
      && !r.ui.showBanner && !r.ui.showSettings
  {
    var stored := ss.win.store[CookieConsentKey := PrefsValue(p)];
    assert ReadHistory(stored) == ReadHistory(ss.win.store);
    var ui := ss.ui.(prefs := p);
    match LogConsent(stored, p, env)
    case None => Session(ui, ss.win.(store := stored))
    case Some(logged) =>
      var gated := Gate(ss.win.(store := logged), p, env.gaId);
      assert ReadHistory(gated.store) == ReadHistory(logged);
      assert StoredAs(gated.store, CookieConsentKey, PrefsValue(p));
      Session(ui.(showBanner := false, showSettings := false), gated)
  }

  /** "Accept All". */
  function AcceptAll(ss: Session, env: Env): (r: Session)
    ensures r.ui.prefs == AllAccepted
    ensures StoredAs(r.win.store, CookieConsentKey, PrefsValue(AllAccepted))
    ensures ReadHistory(ss.win.store).Some? ==>
      && Analytics.HasConsent(r.win.store)
      && ReadHistory(r.win.store).Some?
      && AppendedCapped(ReadHistory(ss.win.store).value, ReadHistory(r.win.store).value, NewRecord(AllAccepted, env))
  {
    Commit(ss, AllAccepted, env)
  }

  /** "Necessary Only". */
  function AcceptNecessary(ss: Session, env: Env): (r: Session)
    ensures r.ui.prefs == DefaultPreferences
    ensures StoredAs(r.win.store, CookieConsentKey, PrefsValue(DefaultPreferences))
    ensures ReadHistory(ss.win.store).Some? ==>
      && StoredAs(r.win.store, AnalyticsConsentKey, Text("false"))
      && ReadHistory(r.win.store).Some?
      && AppendedCapped(ReadHistory(ss.win.store).value, ReadHistory(r.win.store).value, NewRecord(DefaultPreferences, env))
  {
    Commit(ss, DefaultPreferences, env)
  }

  /** "Save Preferences": stores the in-memory record; the consent flag
      mirrors its `analytics` flag. */
  function SavePreferences(ss: Session, env: Env): (r: Session)
    ensures r.ui.prefs == ss.ui.prefs
    ensures StoredAs(r.win.store, CookieConsentKey, PrefsValue(ss.ui.prefs))
    ensures ReadHistory(ss.win.store).Some? ==>
      && (Analytics.HasConsent(r.win.store) <==> ss.ui.prefs.analytics)
      && (!ss.ui.prefs.analytics ==> StoredAs(r.win.store, AnalyticsConsentKey, Text("false")))
  {
    Commit(ss, ss.ui.prefs, env)
  }

  /** A switch in the settings view. */
  function Toggle(ss: Session, key: Category): (r: Session)
    ensures r.win == ss.win
    ensures r.ui.prefs == TogglePreference(ss.ui.prefs, key)
    ensures r.ui.showBanner == ss.ui.showBanner && r.ui.showSettings == ss.ui.showSettings
  {
    ss.(ui := ss.ui.(prefs := TogglePreference(ss.ui.prefs, key)))
  }

  /** What a visitor can do once the banner is up. */
  datatype Action = ToggleKey(key: Category) | AcceptAllClicked | NecessaryClicked | SaveClicked

  function Step(ss: Session, a: Action, env: Env): Session
  {
    match a
    case ToggleKey(key) => Toggle(ss, key)
    case AcceptAllClicked => AcceptAll(ss, env)
    case NecessaryClicked => AcceptNecessary(ss, env)
    case SaveClicked => SavePreferences(ss, env)
  }

  function Run(ss: Session, actions: seq<Action>, env: Env): Session
    decreases |actions|
  {
    if actions == [] then ss else Run(Step(ss, actions[0], env), actions[1..], env)
  }

  /** `necessary` holds in memory, in the stored record (when it parses),
      and in every logged snapshot (when the log parses). */
  ghost predicate NecessaryEverywhere(ss: Session)
  {
    && ss.ui.prefs.necessary
    && (CookieConsentKey in ss.win.store && ss.win.store[CookieConsentKey].PrefsValue? ==>
          ss.win.store[CookieConsentKey].prefs.necessary)
    && (ReadHistory(ss.win.store).Some? ==>
          forall i :: 0 <= i < |ReadHistory(ss.win.store).value| ==>
            ReadHistory(ss.win.store).value[i].preferences.necessary)
  }

  /** Every entry of a capped append is an old entry or the new record. */
  lemma AppendedKeepsNecessary(before: seq<ConsentRecord>, after: seq<ConsentRecord>, rec: ConsentRecord)
    requires AppendedCapped(before, after, rec)
    requires forall i :: 0 <= i < |before| ==> before[i].preferences.necessary
    requires rec.preferences.necessary
    ensures forall i :: 0 <= i < |after| ==> after[i].preferences.necessary
  {
    forall i | 0 <= i < |after|
      ensures after[i].preferences.necessary
    {
      if i < |after| - 1 {
        assert after[i] == after[..|after| - 1][i];
      }
    }
  }

  lemma CommitKeepsNecessary(ss: Session, p: Preferences, env: Env)
    requires NecessaryEverywhere(ss) && p.necessary
    ensures NecessaryEverywhere(Commit(ss, p, env))
  {
    var r := Commit(ss, p, env);
    if ReadHistory(ss.win.store).Some? {
      AppendedKeepsNecessary(ReadHistory(ss.win.store).value, ReadHistory(r.win.store).value, NewRecord(p, env));
    }
  }

  lemma StepKeepsNecessary(ss: Session, a: Action, env: Env)
    requires NecessaryEverywhere(ss)
    ensures NecessaryEverywhere(Step(ss, a, env))
  {
    match a
    case ToggleKey(key) =>
    case AcceptAllClicked => CommitKeepsNecessary(ss, AllAccepted, env);
    case NecessaryClicked => CommitKeepsNecessary(ss, DefaultPreferences, env);
    case SaveClicked => CommitKeepsNecessary(ss, ss.ui.prefs, env);
  }

  /** From any state where `necessary` holds everywhere (the defaults and an
      empty store among them), no sequence of toggles, accepts and saves
      ever clears it. */
  lemma {:induction false} NecessaryStaysTrue(ss: Session, actions: seq<Action>, env: Env)
    requires NecessaryEverywhere(ss)
    ensures NecessaryEverywhere(Run(ss, actions, env))
    decreases |actions|
  {
    if actions != [] {
      StepKeepsNecessary(ss, actions[0], env);
      NecessaryStaysTrue(Step(ss, actions[0], env), actions[1..], env);
    }
  }

  /** A first visit and a "Necessary Only" decision hold the same record in
      memory, but only the decision is remembered: it is logged, and the
      next mount shows no banner. */
  lemma FirstVisitDiffersFromNecessaryOnly(w: Window, env: Env)
    requires CookieConsentKey !in w.store && ConsentHistoryKey !in w.store
    ensures Mount(w, env.gaId).ui.showBanner
    ensures var decided := AcceptNecessary(Mount(w, env.gaId), env);
            && decided.ui.prefs == Mount(w, env.gaId).ui.prefs
            && ReadHistory(decided.win.store) == Some([NewRecord(DefaultPreferences, env)])
            && !Mount(decided.win, env.gaId).ui.showBanner
            && Mount(decided.win, env.gaId).ui.prefs == DefaultPreferences
  {
    var first := Mount(w, env.gaId);
    assert first == Session(BannerStart.(showBanner := true), w);
    assert ReadHistory(w.store) == Some([]);
    var decided := AcceptNecessary(first, env);
    var h := ReadHistory(decided.win.store).value;
    assert |h| == 1 && h[0] == NewRecord(DefaultPreferences, env);
    assert StoredAs(decided.win.store, CookieConsentKey, PrefsValue(DefaultPreferences));
    assert ReadPreferences(decided.win.store) == Some(DefaultPreferences);
  }
}

=== FILE: cookie_settings.dfy ===
/** The settings panel (components/CookieSettings.tsx): loads the stored
    record once, when it mounts, toggles categories in memory, and "Save
    Settings" writes only the `cookie-consent` item. The panel stays
    mounted while closed, so its in-memory record survives from one
    opening to the next. */
module CookieSettings {
  import opened Entities
  import opened Browser
  import Analytics

  /** The mount effect: a truthy item that parses replaces the defaults;
      an absent item, or one that does not parse (caught), keeps them. */
  function LoadSettings(s: Storage): (r: Preferences)
    ensures Truthy(s, CookieConsentKey) && ReadPreferences(s).Some? ==> r == ReadPreferences(s).value
    ensures !Truthy(s, CookieConsentKey) ==> r == DefaultPreferences
    ensures Truthy(s, CookieConsentKey) && ReadPreferences(s).None? ==> r == DefaultPreferences
  {
    if !Truthy(s, CookieConsentKey) then DefaultPreferences
    else match ReadPreferences(s)
      case Some(p) => p
      case None => DefaultPreferences
  }

  /** `saveSettings`: the record goes to `cookie-consent`; no history entry
      is logged and the analytics flag is not touched. */
  function SaveSettings(s: Storage, p: Preferences): (r: Storage)
    ensures StoredAs(r, CookieConsentKey, PrefsValue(p))
    ensures SameExcept(s, r, {CookieConsentKey})
    ensures ReadHistory(r) == ReadHistory(s)
    ensures Analytics.HasConsent(r) <==> Analytics.HasConsent(s)
  {
    s[CookieConsentKey := PrefsValue(p)]
  }

  /** The mounted panel's state: the record it shows and will save. */
  datatype Panel = Panel(prefs: Preferences)

  /** Mounting: the record is read from storage this once. */
  function MountPanel(s: Storage): (r: Panel)
    ensures r.prefs.necessary == LoadSettings(s).necessary
    ensures !Truthy(s, CookieConsentKey) ==> r.prefs == DefaultPreferences
    ensures Truthy(s, CookieConsentKey) && ReadPreferences(s).Some? ==> r.prefs == ReadPreferences(s).value
    ensures Truthy(s, CookieConsentKey) && ReadPreferences(s).None? ==> r.prefs == DefaultPreferences
  {
    Panel(LoadSettings(s))
  }

  /** What the visitor does in one opening: a run of toggle clicks, then
      "Save Settings" (`save`) or "Cancel". */
  datatype Opening = Opening(toggles: seq<Category>, save: bool)

  /** One opening of a mounted panel against the storage as it is now.
      Save writes the panel's record; Cancel only closes the panel, and
      the toggled record stays in memory either way. */
  function OpenPanel(panel: Panel, s: Storage, o: Opening): (r: (Panel, Storage))
    ensures r.0.prefs == ApplyToggles(panel.prefs, o.toggles)
    ensures r.0.prefs.necessary == panel.prefs.necessary
    ensures forall c :: c != Necessary && (forall i :: 0 <= i < |o.toggles| ==> o.toggles[i] != c) ==>
              Flag(r.0.prefs, c) == Flag(panel.prefs, c)
    ensures !o.save ==> r.1 == s
    ensures o.save ==> SameExcept(s, r.1, {CookieConsentKey})
    ensures o.save ==> StoredAs(r.1, CookieConsentKey, PrefsValue(r.0.prefs))
    ensures o.save ==> (Analytics.HasConsent(r.1) <==> Analytics.HasConsent(s))
  {
    var p := ApplyToggles(panel.prefs, o.toggles);
    (Panel(p), if o.save then SaveSettings(s, p) else s)
  }

  /** Every click of a run of openings, in order. */
  function AllToggles(os: seq<Opening>): (r: seq<Category>)
    ensures os != [] ==> r == os[0].toggles + AllToggles(os[1..])
  {
    if os == [] then [] else os[0].toggles + AllToggles(os[1..])
  }

  /** A run of openings of one mounted panel, the storage untouched by
      anything else in between. */
  function PanelRun(panel: Panel, s: Storage, os: seq<Opening>): (r: (Panel, Storage))
    ensures r.0.prefs == ApplyToggles(panel.prefs, AllToggles(os))
    ensures SameExcept(s, r.1, {CookieConsentKey})
    ensures (forall i :: 0 <= i < |os| ==> !os[i].save) ==> r.1 == s
    ensures os != [] && os[|os| - 1].save ==> StoredAs(r.1, CookieConsentKey, PrefsValue(r.0.prefs))
    decreases |os|
  {
    if os == [] then (panel, s)
    else
      var step := OpenPanel(panel, s, os[0]);
      assert step.0.prefs == ApplyToggles(panel.prefs, os[0].toggles);
      ApplyTogglesConcat(panel.prefs, os[0].toggles, AllToggles(os[1..]));
      PanelRun(step.0, step.1, os[1..])
  }

  /** The first opening after mount: load, a run of toggles, then Save or
      Cancel. */
  function SettingsSession(s: Storage, toggles: seq<Category>, save: bool): (r: Storage)
    ensures !save ==> r == s
    ensures save ==> SameExcept(s, r, {CookieConsentKey})
    ensures save ==> StoredAs(r, CookieConsentKey, PrefsValue(ApplyToggles(LoadSettings(s), toggles)))
  {
    OpenPanel(MountPanel(s), s, Opening(toggles, save)).1
  }

  /** Whatever the visitor toggles, a save keeps the loaded `necessary`
      flag: true after a first visit, a malformed item or any record the
      site itself wrote. */
  lemma SavedNecessaryFollowsLoaded(s: Storage, toggles: seq<Category>)
    ensures var r := SettingsSession(s, toggles, true);
            r[CookieConsentKey].prefs.necessary == LoadSettings(s).necessary
    ensures !Truthy(s, CookieConsentKey) ==>
      SettingsSession(s, toggles, true)[CookieConsentKey].prefs.necessary
  {
  }

  /** Cancel does not undo: the clicks of a cancelled opening are part of
      what a later Save in the same mount writes. */
  lemma {:induction false} CancelledTogglesCarryOver(s: Storage, cancelled: seq<Category>, saved: seq<Category>)
    ensures PanelRun(MountPanel(s), s, [Opening(cancelled, false), Opening(saved, true)]).1
            == SaveSettings(s, ApplyToggles(LoadSettings(s), cancelled + saved))
  {
    var os := [Opening(cancelled, false), Opening(saved, true)];
    assert os[1..] == [Opening(saved, true)];
    assert os[1..][1..] == [];
    assert AllToggles(os) == cancelled + saved + [];
    assert cancelled + saved + [] == cancelled + saved;
  }

  /** A concrete case: toggle analytics, Cancel, reopen and Save without a
      click; the saved analytics flag is the opposite of the loaded one. */
  lemma CancelledToggleIsSaved(s: Storage)
    ensures var r := PanelRun(MountPanel(s), s, [Opening([Analytics], false), Opening([], true)]).1;
            && StoredAs(r, CookieConsentKey, PrefsValue(LoadSettings(s).(analytics := !LoadSettings(s).analytics)))
  {
    CancelledTogglesCarryOver(s, [Analytics], []);
    assert [Analytics] + [] == [Analytics];
  }

  /** The record is never reloaded: a Save writes what the panel loaded at
      mount, whatever was stored in between (a banner decision, say), and
      leaves the analytics flag as the storage now has it. */
  lemma StaleRecordOverwrites(mounted: Storage, now: Storage, toggles: seq<Category>)
    ensures var r := OpenPanel(MountPanel(mounted), now, Opening(toggles, true)).1;
            && StoredAs(r, CookieConsentKey, PrefsValue(ApplyToggles(LoadSettings(mounted), toggles)))
            && (Analytics.HasConsent(r) <==> Analytics.HasConsent(now))
  {
  }
}

=== FILE: entities.dfy ===
/** The records the consent and telemetry code passes around: the
    three-flag cookie preference record, the consent log entry and the
    stored performance metric. */
module Entities {

  /** Cookie categories a visitor can accept or refuse. */
  datatype Preferences = Preferences(necessary: bool, analytics: bool, marketing: bool)

  /** The in-memory starting value of both consent components; also the
      record "necessary only" writes. */
  const DefaultPreferences := Preferences(true, false, false)

  /** The record "Accept All" writes. */
  const AllAccepted := Preferences(true, true, true)

  /** A key of the preference record (`keyof typeof preferences`). */
  datatype Category = Necessary | Analytics | Marketing

  function Flag(p: Preferences, key: Category): bool
  {
    match key
    case Necessary => p.necessary
    case Analytics => p.analytics
    case Marketing => p.marketing
  }

  /** `togglePreference`, identical in the banner and in the settings
      panel: "necessary" is refused, any other key is negated. */
  function TogglePreference(p: Preferences, key: Category): (r: Preferences)
    ensures key == Necessary ==> r == p
    ensures key != Necessary ==> Flag(r, key) == !Flag(p, key)
    ensures forall c :: c != key ==> Flag(r, c) == Flag(p, c)
  {
    match key
    case Necessary => p
    case Analytics => p.(analytics := !p.analytics)
    case Marketing => p.(marketing := !p.marketing)
  }

  /** Toggling the same key twice restores the record. */
  lemma ToggleTwiceRestores(p: Preferences, key: Category)
    ensures TogglePreference(TogglePreference(p, key), key) == p
  {
  }

  /** A run of toggle clicks applied in order. */
  function ApplyToggles(p: Preferences, keys: seq<Category>): (r: Preferences)
    ensures r.necessary == p.necessary
    ensures forall c :: c != Necessary && (forall i :: 0 <= i < |keys| ==> keys[i] != c) ==> Flag(r, c) == Flag(p, c)
    decreases |keys|
  {
    if keys == [] then p else ApplyToggles(TogglePreference(p, keys[0]), keys[1..])
  }

  /** Two runs of clicks on the same record are one run of all the clicks. */
  lemma {:induction false} ApplyTogglesConcat(p: Preferences, a: seq<Category>, b: seq<Category>)
    ensures ApplyToggles(p, a + b) == ApplyToggles(ApplyToggles(p, a), b)
    decreases |a|
  {
    if a == [] {
      assert a + b == b;
    } else {
      assert (a + b)[0] == a[0];
      assert (a + b)[1..] == a[1..] + b;
      ApplyTogglesConcat(TogglePreference(p, a[0]), a[1..], b);
    }
  }

  /** One entry of the `consent-history` log. */
  datatype ConsentRecord = ConsentRecord(
    timestamp: string,
    preferences: Preferences,
    version: string,
    userAgent: string,
    ipHash: string)

  /** One entry of the `performance-metrics` buffer. */
  datatype PerformanceMetric = PerformanceMetric(
    name: string,
    value: real,
    rating: string,
    timestamp: int,
    id: string,
    navigationType: string)
}

=== FILE: gdpr_widget.dfy ===
/** The data-rights widget (components/GDPRComplianceWidget.tsx): shows the
    consent history, exports it with the stored preferences, erases the
    consent items, and reopens the banner by forgetting the decision. */
module GdprWidget {
  import opened Wrappers
  import opened Entities
  import opened Browser
  import Analytics
  import CookieConsent
  import CookieSettings
  import Trackers

  /** The widget's copy of the history. */
  datatype Widget = Widget(history: seq<ConsentRecord>)

  /** The mount effect: the history is parsed without a guard, so a value
      that does not parse throws out of the effect (`None`). */
  function MountWidget(s: Storage): (r: Option<Widget>)
    ensures r.None? <==> ReadHistory(s).None?
    ensures !Truthy(s, ConsentHistoryKey) ==> r == Some(Widget([]))
    ensures r.Some? ==> r.value.history == ReadHistory(s).value
  {
    match ReadHistory(s)
    case None => None
    case Some(h) => Some(Widget(h))
  }

  /** The exported preferences: `{}` when nothing is stored. */
  datatype ExportedPreferences = EmptyObject | Saved(prefs: Preferences)

  datatype Export = Export(
    consentHistory: seq<ConsentRecord>,
    preferences: ExportedPreferences,
    timestamp: string,
    dataController: string,
    legalBasis: string)

  /** The record `downloadMyData` serialises (the file download itself is
      not modelled). `None` when the stored preferences do not parse, which
      throws. */
  function ExportMyData(wg: Widget, s: Storage, now: string): (r: Option<Export>)
    ensures r.Some? ==> r.value.consentHistory == wg.history && r.value.timestamp == now
    ensures r.Some? ==> r.value.dataController == "Your Portfolio Ltd."
    ensures r.Some? ==> r.value.legalBasis == "Consent and Legitimate Interest"
    ensures !Truthy(s, CookieConsentKey) ==> r.Some? && r.value.preferences == EmptyObject
    ensures Truthy(s, CookieConsentKey) ==>
      (r.Some? <==> ReadPreferences(s).Some?) &&
      (r.Some? ==> r.value.preferences == Saved(ReadPreferences(s).value))
  {
    var prefs :=
      if !Truthy(s, CookieConsentKey) then Some(EmptyObject)
      else match ReadPreferences(s)
        case Some(p) => Some(Saved(p))
        case None => None;
    match prefs
    case None => None
    case Some(e) => Some(Export(wg.history, e, now, "Your Portfolio Ltd.", "Consent and Legitimate Interest"))
  }

  /** The three items "Delete My Data" removes. */
  const ErasedKeys: set<string> := {CookieConsentKey, ConsentHistoryKey, AnalyticsConsentKey}

  /** `deleteMyData`, given the answer to the confirmation dialog. */
  function DeleteMyData(wg: Widget, s: Storage, confirmed: bool): (r: (Widget, Storage))
    ensures !confirmed ==> r == (wg, s)
    ensures confirmed ==> r.0.history == []
    ensures confirmed ==> forall k :: k in ErasedKeys ==> k !in r.1
    ensures SameExcept(s, r.1, ErasedKeys)
  {
    if confirmed then (Widget([]), s - ErasedKeys) else (wg, s)
  }

  /** After an erase, every reader sees a first visit: the banner shows
      with defaults, the settings panel loads defaults, the widget shows an
      empty history, and analytics initialisation takes the no-consent
      branch. Other items, such as the metrics buffer, are kept. */
  lemma EraseLooksLikeFirstVisit(wg: Widget, w: Window, gaId: string)
    ensures var (wg', s') := DeleteMyData(wg, w.store, true);
            var w' := w.(store := s');
            && CookieConsent.Mount(w', gaId) == CookieConsent.Session(CookieConsent.BannerStart.(showBanner := true), w')
            && CookieSettings.LoadSettings(s') == DefaultPreferences
            && MountWidget(s') == Some(Widget([]))
            && Analytics.InitPrivacyCompliantAnalytics(w', gaId) == w'
            && (PerformanceMetricsKey in w.store <==> PerformanceMetricsKey in s')
            && (PerformanceMetricsKey in w.store ==> s'[PerformanceMetricsKey] == w.store[PerformanceMetricsKey])
  {
  }

  /** The erase removes items only: it sends no consent update, and
      `window.gtag` and the installed listeners stay, so a scroll tracker
      installed earlier in this page still reports new thresholds. */
  lemma EraseKeepsScrollTracking(wg: Widget, w: Window, st: Trackers.ScrollState, percent: int)
    requires w.gtag
    ensures var w' := w.(store := DeleteMyData(wg, w.store, true).1);
            var r := Trackers.HandleScroll(st, w', percent);
            && !Analytics.HasConsent(w'.store)
            && r.1.log[..|w.log|] == w.log
            && |r.1.log| == |w.log| + |r.0.tracked - st.tracked|
  {
  }

  /** Export after erase: the export no longer carries any consent
      data, only the fixed controller fields. */
  lemma ExportAfterEraseIsEmpty(wg: Widget, s: Storage, now: string)
    ensures var (wg', s') := DeleteMyData(wg, s, true);
            ExportMyData(wg', s', now)
              == Some(Export([], EmptyObject, now, "Your Portfolio Ltd.", "Consent and Legitimate Interest"))
  {
  }

  /** "Manage Cookies": forget only the decision, then reload. */
  function ManageCookies(s: Storage): (r: Storage)
    ensures CookieConsentKey !in r
    ensures SameExcept(s, r, {CookieConsentKey})
  {
    s - {CookieConsentKey}
  }

  /** After "Manage Cookies" the reloaded banner asks again, while the
      history and the analytics flag survive, so analytics is still
      initialised when it had been consented to. */
  lemma ManageCookiesKeepsHistoryAndFlag(w: Window, gaId: string)
    ensures var w' := w.(store := ManageCookies(w.store));
            && CookieConsent.Mount(w', gaId).ui.showBanner
            && ReadHistory(w'.store) == ReadHistory(w.store)
            && (Analytics.HasConsent(w'.store) <==> Analytics.HasConsent(w.store))
  {
  }
}

=== FILE: monitor.dfy ===
/** The performance-monitor hook (hooks/usePerformanceMonitor.ts): an
    overall score from the newest ratings, per-name lookups over the
    buffer, and the list of advice messages. */
module Monitor {
  import opened Wrappers
  import opened Sequences
  import opened Entities
  import opened Browser
  import Performance

  /** How many of the newest metrics the score looks at. */
  const ScoreWindow: nat := 5

  /** Per-metric points. The hook compares against "needs-improvement"
      with a hyphen. */
  function MetricScore(rating: string): (r: int)
    ensures rating == "good" <==> r == 100
    ensures rating == "needs-improvement" <==> r == 60
    ensures rating == "poor" <==> r == 20
    ensures r == 50 <==> rating != "good" && rating != "needs-improvement" && rating != "poor"
  {
    if rating == "good" then 100
    else if rating == "needs-improvement" then 60
    else if rating == "poor" then 20
    else 50
  }

  /** The `reduce` over the per-metric points, oldest first. */
  function SumScores(ms: seq<PerformanceMetric>): (r: int)
    ensures 20 * |ms| <= r <= 100 * |ms|
  {
    if ms == [] then 0 else SumScores(ms[..|ms| - 1]) + MetricScore(ms[|ms| - 1].rating)
  }

  /** `Math.round(sum / n)` for a non-negative sum: halves round up, so
      r - 1/2 <= sum / n < r + 1/2, stated here multiplied by 2n. */
  function RoundedMean(sum: int, n: int): (r: int)
    requires sum >= 0 && n > 0
    ensures (2 * r - 1) * n <= 2 * sum < (2 * r + 1) * n
  {
    var q := (2 * sum + n) / (2 * n);
    var rem := (2 * sum + n) % (2 * n);
    assert 2 * sum + n == q * (2 * n) + rem && 0 <= rem < 2 * n;
    assert q * (2 * n) == 2 * q * n;
    assert (2 * q - 1) * n == 2 * q * n - n;
    assert (2 * q + 1) * n == 2 * q * n + n;
    q
  }

  /** `calculatePerformanceScore`: 0 for no metrics, otherwise the rounded
      mean of the points of the newest five, which lies in [20, 100]. */
  function CalculatePerformanceScore(ms: seq<PerformanceMetric>): (r: int)
    ensures ms == [] ==> r == 0
    ensures ms != [] ==> 20 <= r <= 100
    ensures ms != [] ==> var l := Last(ms, ScoreWindow);
      (2 * r - 1) * |l| <= 2 * SumScores(l) < (2 * r + 1) * |l|
  {
    if ms == [] then 0
    else
      var latest := Last(ms, ScoreWindow);
      var sum := SumScores(latest);
      var mean := RoundedMean(sum, |latest|);
      MeanBounds(sum, |latest|, mean);
      mean
  }

  /** A rounded mean of values in [20, 100] lies in [20, 100]. */
  lemma MeanBounds(sum: int, n: int, r: int)
    requires n > 0 && 20 * n <= sum <= 100 * n
    requires (2 * r - 1) * n <= 2 * sum < (2 * r + 1) * n
    ensures 20 <= r <= 100
  {
    assert (2 * r - 201) * n == (2 * r - 1) * n - 200 * n;
    NonPositiveFactor(2 * r - 201, n);
    assert (39 - 2 * r) * n == 40 * n - (2 * r + 1) * n;
    NonPositiveFactor(39 - 2 * r, n);
  }

  lemma NonPositiveFactor(x: int, n: int)
    requires n > 0 && x * n <= 0
    ensures x <= 0
  {
  }

  /** Only the newest five metrics influence the score: replacing or
      removing anything older leaves it unchanged. */
  lemma ScoreIgnoresOlderMetrics(older1: seq<PerformanceMetric>, older2: seq<PerformanceMetric>, newest: seq<PerformanceMetric>)
    requires |newest| >= ScoreWindow
    ensures CalculatePerformanceScore(older1 + newest) == CalculatePerformanceScore(older2 + newest)
  {
    LastIgnoresOlder(older1, newest, ScoreWindow);
    LastIgnoresOlder(older2, newest, ScoreWindow);
  }

  /** The rating strings do not match across files: a sample the collector
      rates "needs improvement" scores 50 here, never 60. */
  lemma CollectorRatingNeverScoresSixty(name: string, value: real)
    ensures MetricScore(Performance.GetPerformanceRating(name, value)) != 60
    ensures Performance.GetPerformanceRating(name, value) == Performance.NeedsImprovement ==>
      MetricScore(Performance.GetPerformanceRating(name, value)) == 50
  {
  }

  /** `getMetricsByType`: the metrics with that name. */
  function GetMetricsByType(ms: seq<PerformanceMetric>, name: string): (r: seq<PerformanceMetric>)
    ensures |r| <= |ms|
    ensures forall i :: 0 <= i < |r| ==> r[i].name == name && r[i] in ms
    ensures forall i :: 0 <= i < |ms| && ms[i].name == name ==> ms[i] in r
  {
    if ms == [] then []
    else GetMetricsByType(ms[..|ms| - 1], name) + (if ms[|ms| - 1].name == name then [ms[|ms| - 1]] else [])
  }

  /** The filter keeps the original order: it distributes over
      concatenation, so it is exactly the order-preserving selection. */
  lemma {:induction false} MetricsByTypeOfAppend(a: seq<PerformanceMetric>, b: seq<PerformanceMetric>, name: string)
    ensures GetMetricsByType(a + b, name) == GetMetricsByType(a, name) + GetMetricsByType(b, name)
    decreases |b|
  {
    if b == [] {
      assert a + b == a;
    } else {
      var b' := b[..|b| - 1];
      assert (a + b)[..|a + b| - 1] == a + b';
      assert (a + b)[|a + b| - 1] == b[|b| - 1];
      MetricsByTypeOfAppend(a, b', name);
    }
  }

  /** `getLatestMetric`: the last element of the filtered list, or null. */
  function GetLatestMetric(ms: seq<PerformanceMetric>, name: string): (r: Option<PerformanceMetric>)
    ensures r.Some? ==> r.value.name == name && r.value in ms
  {
    var typed := GetMetricsByType(ms, name);
    if |typed| > 0 then Some(typed[|typed| - 1]) else None
  }

  /** Reference definition: scan backwards for the last index carrying
      `name`; -1 when there is none. */
  function LastIndexOf(ms: seq<PerformanceMetric>, name: string): (k: int)
    ensures -1 <= k < |ms|
    ensures k >= 0 ==> ms[k].name == name
    ensures forall j :: k < j < |ms| ==> ms[j].name != name
  {
    if ms == [] then -1
    else if ms[|ms| - 1].name == name then |ms| - 1
    else LastIndexOf(ms[..|ms| - 1], name)
  }

  /** `getLatestMetric` returns the entry at the last index with that name,
      and null exactly when no entry has that name. */
  lemma {:induction false} LatestIsLastOfName(ms: seq<PerformanceMetric>, name: string)
    ensures var k := LastIndexOf(ms, name);
            GetLatestMetric(ms, name) == if k < 0 then None else Some(ms[k])
    ensures GetLatestMetric(ms, name) == None <==> forall i :: 0 <= i < |ms| ==> ms[i].name != name
  {
    if ms != [] {
      var init := ms[..|ms| - 1];
      LatestIsLastOfName(init, name);
      if ms[|ms| - 1].name != name {
        assert GetMetricsByType(ms, name) == GetMetricsByType(init, name);
        var k := LastIndexOf(init, name);
        assert k >= 0 ==> ms[k] == init[k];
      }
    }
  }

  /** `budgetStatus`; the hook never sets it (the call is commented out),
      so it stays `None` in practice. */
  datatype BudgetStatus = BudgetStatus(totalSize: int, violations: seq<string>, withinBudget: bool)

  /** The messages the hook can push, in the order its checks run. */
  datatype Insight = SlowLcp | HighFid | HighCls | BudgetExceeded | LooksGood

  const LcpText := "Large Contentful Paint is slow. Consider optimizing images and reducing server response time."
  const FidText := "First Input Delay is high. Consider reducing JavaScript execution time."
  const ClsText := "Cumulative Layout Shift is high. Ensure images and ads have defined dimensions."
  const BudgetText := "Performance budget exceeded. Consider optimizing resource sizes."
  const LooksGoodText := "Performance looks good! Keep up the great work."

  /** The text pushed for each insight. */
  function Message(k: Insight): string
  {
    match k
    case SlowLcp => LcpText
    case HighFid => FidText
    case HighCls => ClsText
    case BudgetExceeded => BudgetText
    case LooksGood => LooksGoodText
  }

  lemma TextLengths()
    ensures |LcpText| == 93 && |FidText| == 71 && |ClsText| == 79
    ensures |BudgetText| == 64 && |LooksGoodText| == 47
  {
  }

  /** Different insights have different texts (their lengths differ), so
      the rendered list says no more and no less than the insights. */
  lemma MessagesDistinct(a: Insight, b: Insight)
    ensures Message(a) == Message(b) ==> a == b
  {
    TextLengths();
  }

  /** The latest metric of that name exists and is rated "poor". */
  predicate LatestIsPoor(ms: seq<PerformanceMetric>, name: string)
  {
    var latest := GetLatestMetric(ms, name);
    latest.Some? && latest.value.rating == "poor"
  }

  predicate OverBudget(budget: Option<BudgetStatus>)
  {
    budget.Some? && !budget.value.withinBudget
  }

  /** Where each insight stands in the list the hook builds: the checks
      run LCP, FID, CLS, then the budget, and "looks good" comes last. */
  function Rank(k: Insight): nat
  {
    match k
    case SlowLcp => 0
    case HighFid => 1
    case HighCls => 2
    case BudgetExceeded => 3
    case LooksGood => 4
  }

  /** Insights appear in strictly increasing rank: no repeats, and the
      order of the checks. */
  predicate Ranked(r: seq<Insight>)
  {
    forall i, j :: 0 <= i < j < |r| ==> Rank(r[i]) < Rank(r[j])
  }

  /** How many of the four checks fire. */
  function FiredCount(lcp: bool, fid: bool, cls: bool, over: bool): nat
  {
    (if lcp then 1 else 0) + (if fid then 1 else 0) + (if cls then 1 else 0) + (if over then 1 else 0)
  }

  /** What one `if (...) insights.push(...)` contributes. */
  function Pushed(fires: bool, k: Insight): (r: seq<Insight>)
    ensures |r| == (if fires then 1 else 0) && Ranked(r)
    ensures forall i :: 0 <= i < |r| ==> r[i] == k
    ensures k in r <==> fires
  {
    if fires then [k] else []
  }

  /** Appending a ranked list with ranks in [m, n) to a ranked list with
      ranks below `m` gives a ranked list with ranks below `n`. */
  lemma RankedConcat(a: seq<Insight>, b: seq<Insight>, m: nat, n: nat)
    requires Ranked(a) && Ranked(b)
    requires m <= n && forall i :: 0 <= i < |a| ==> Rank(a[i]) < m
    requires forall i :: 0 <= i < |b| ==> m <= Rank(b[i]) < n
    ensures Ranked(a + b)
    ensures forall i :: 0 <= i < |a + b| ==> Rank((a + b)[i]) < n
  {
    forall i, j | 0 <= i < j < |a + b|
      ensures Rank((a + b)[i]) < Rank((a + b)[j])
    {
      if j < |a| {
        assert (a + b)[i] == a[i] && (a + b)[j] == a[j];
      } else if i >= |a| {
        assert (a + b)[i] == b[i - |a|] && (a + b)[j] == b[j - |a|];
      } else {
        assert (a + b)[i] == a[i] && (a + b)[j] == b[j - |a|];
      }
    }
    forall i | 0 <= i < |a + b|
      ensures Rank((a + b)[i]) < n
    {
      if i >= |a| {
        assert (a + b)[i] == b[i - |a|];
      }
    }
  }

  /** The four pushes, given which checks fire: one piece of advice per
      check that fires. */
  function Found(lcp: bool, fid: bool, cls: bool, over: bool): (r: seq<Insight>)
    ensures |r| == FiredCount(lcp, fid, cls, over)
    ensures SlowLcp in r <==> lcp
    ensures HighFid in r <==> fid
    ensures HighCls in r <==> cls
    ensures BudgetExceeded in r <==> over
    ensures LooksGood !in r
  {
    Pushed(lcp, SlowLcp) + Pushed(fid, HighFid) + Pushed(cls, HighCls) + Pushed(over, BudgetExceeded)
  }

  /** Four lists of at most one element each, the k-th holding only
      rank-k insights, concatenate to a ranked list. */
  lemma FourRanked(p1: seq<Insight>, p2: seq<Insight>, p3: seq<Insight>, p4: seq<Insight>)
    requires |p1| <= 1 && |p2| <= 1 && |p3| <= 1 && |p4| <= 1
    requires forall i :: 0 <= i < |p1| ==> Rank(p1[i]) == 0
    requires forall i :: 0 <= i < |p2| ==> Rank(p2[i]) == 1
    requires forall i :: 0 <= i < |p3| ==> Rank(p3[i]) == 2
    requires forall i :: 0 <= i < |p4| ==> Rank(p4[i]) == 3
    ensures Ranked(p1 + p2 + p3 + p4)
  {
    RankedConcat(p1, p2, 1, 2);
    RankedConcat(p1 + p2, p3, 2, 3);
    RankedConcat(p1 + p2 + p3, p4, 3, 4);
  }

  /** The advice comes in the order of the checks, each at most once. */
  lemma FoundRanked(lcp: bool, fid: bool, cls: bool, over: bool)
    ensures Ranked(Found(lcp, fid, cls, over))
  {
    FourRanked(Pushed(lcp, SlowLcp), Pushed(fid, HighFid), Pushed(cls, HighCls), Pushed(over, BudgetExceeded));
  }

  /** The list the hook returns, given which checks fire: the advice, or
      "looks good" alone when there is none. */
  function InsightList(lcp: bool, fid: bool, cls: bool, over: bool): (r: seq<Insight>)
    ensures |r| >= 1
    ensures SlowLcp in r <==> lcp
    ensures HighFid in r <==> fid
    ensures HighCls in r <==> cls
    ensures BudgetExceeded in r <==> over
    ensures r == [LooksGood] <==> !lcp && !fid && !cls && !over
    ensures Ranked(r)
    ensures LooksGood in r ==> r == [LooksGood]
    ensures r != [LooksGood] ==> |r| == FiredCount(lcp, fid, cls, over)
  {
    var found := Found(lcp, fid, cls, over);
    FoundRanked(lcp, fid, cls, over);
    if found == [] then [LooksGood] else found
  }

  /** The insights `getPerformanceInsights` reports: one per latest LCP,
      FID and CLS rated "poor" and one for an exceeded budget, in that
      order and each at most once; "looks good" alone when none applies. */
  function PerformanceInsights(ms: seq<PerformanceMetric>, budget: Option<BudgetStatus>): (r: seq<Insight>)
    ensures |r| >= 1
    ensures SlowLcp in r <==> LatestIsPoor(ms, "LCP")
    ensures HighFid in r <==> LatestIsPoor(ms, "FID")
    ensures HighCls in r <==> LatestIsPoor(ms, "CLS")
    ensures BudgetExceeded in r <==> OverBudget(budget)
    ensures r == [LooksGood] <==>
      !LatestIsPoor(ms, "LCP") && !LatestIsPoor(ms, "FID") && !LatestIsPoor(ms, "CLS") && !OverBudget(budget)
    ensures Ranked(r)
    ensures LooksGood in r ==> r == [LooksGood]
    ensures r != [LooksGood] ==>
      |r| == FiredCount(LatestIsPoor(ms, "LCP"), LatestIsPoor(ms, "FID"), LatestIsPoor(ms, "CLS"), OverBudget(budget))
  {
    InsightList(LatestIsPoor(ms, "LCP"), LatestIsPoor(ms, "FID"), LatestIsPoor(ms, "CLS"), OverBudget(budget))
  }

  /** `getPerformanceInsights`: the texts of those insights, in order. */
  function GetPerformanceInsights(ms: seq<PerformanceMetric>, budget: Option<BudgetStatus>): (r: seq<string>)
    ensures |r| == |PerformanceInsights(ms, budget)| >= 1
    ensures forall i :: 0 <= i < |r| ==> r[i] == Message(PerformanceInsights(ms, budget)[i])
  {
    var ks := PerformanceInsights(ms, budget);
    seq(|ks|, i requires 0 <= i < |ks| => Message(ks[i]))
  }

  /** A list rendered message by message shows a message exactly when
      its insight is in the list. */
  lemma RenderedMembership(ks: seq<Insight>, r: seq<string>, k: Insight)
    requires |r| == |ks|
    requires forall i :: 0 <= i < |r| ==> r[i] == Message(ks[i])
    ensures Message(k) in r <==> k in ks
  {
    if Message(k) in r {
      var i :| 0 <= i < |r| && r[i] == Message(k);
      MessagesDistinct(ks[i], k);
    }
    if k in ks {
      var i :| 0 <= i < |ks| && ks[i] == k;
      assert r[i] == Message(k);
    }
  }

  /** The rendered list determines the insights: a message is shown
      exactly when its insight is reported. */
  lemma ShownExactlyWhenReported(ms: seq<PerformanceMetric>, budget: Option<BudgetStatus>, k: Insight)
    ensures Message(k) in GetPerformanceInsights(ms, budget) <==> k in PerformanceInsights(ms, budget)
  {
    RenderedMembership(PerformanceInsights(ms, budget), GetPerformanceInsights(ms, budget), k);
  }

  /** The hook's state: the loaded metrics and the score. */
  datatype MonitorState = MonitorState(metrics: seq<PerformanceMetric>, score: int)

  const MonitorStart := MonitorState([], 0)

  /** `loadMetrics` on mount: a truthy item that parses replaces the
      metrics and recomputes the score; an absent item or a parse error
      (caught) keeps the start state. */
  function LoadMetrics(s: Storage): (r: MonitorState)
    ensures Truthy(s, PerformanceMetricsKey) && s[PerformanceMetricsKey].MetricsValue? ==>
      r.metrics == s[PerformanceMetricsKey].metrics && r.score == CalculatePerformanceScore(r.metrics)
    ensures !(Truthy(s, PerformanceMetricsKey) && s[PerformanceMetricsKey].MetricsValue?) ==> r == MonitorStart
  {
    if Truthy(s, PerformanceMetricsKey) then
      match s[PerformanceMetricsKey]
      case MetricsValue(ms) => MonitorState(ms, CalculatePerformanceScore(ms))
      case _ => MonitorStart
    else MonitorStart
  }

  /** The `storage` event listener: only a non-empty new value of the
      metrics key that parses is taken. */
  function OnStorageChange(st: MonitorState, key: string, newValue: Option<Stored>): (r: MonitorState)
    ensures key != PerformanceMetricsKey ==> r == st
    ensures newValue == None || newValue == Some(Text("")) ==> r == st
    ensures key == PerformanceMetricsKey && newValue.Some? && newValue.value.MetricsValue? ==>
      r.metrics == newValue.value.metrics && r.score == CalculatePerformanceScore(r.metrics)
    ensures newValue.Some? && !newValue.value.MetricsValue? ==> r == st
  {
    if key == PerformanceMetricsKey && newValue.Some? && newValue.value != Text("") then
      match newValue.value
      case MetricsValue(ms) => MonitorState(ms, CalculatePerformanceScore(ms))
      case _ => st
    else st
  }

  /** A score is invariant: every state the hook reaches has the score of
      its metrics. */
  ghost predicate Consistent(st: MonitorState)
  {
    st.score == CalculatePerformanceScore(st.metrics)
  }

  lemma MonitorStaysConsistent(s: Storage, key: string, newValue: Option<Stored>)
    ensures Consistent(LoadMetrics(s))
    ensures Consistent(OnStorageChange(LoadMetrics(s), key, newValue))
  {
  }
}

=== FILE: monitor_view.dfy ===
/** The pure helpers of the performance panel
    (components/PerformanceMonitor.tsx): colour buckets, the byte-size
    unit, and the "Recent Metrics" list. */
module MonitorView {
  import opened Sequences
  import opened Entities
  import Performance

  const Green: string := "text-green-500"
  const Yellow: string := "text-yellow-500"
  const Red: string := "text-red-500"
  const Gray: string := "text-gray-500"

  /** `getScoreColor`. */
  function GetScoreColor(score: int): (r: string)
    ensures r == Green <==> score >= 90
    ensures r == Yellow <==> 70 <= score < 90
    ensures r == Red <==> score < 70
  {
    if score >= 90 then Green else if score >= 70 then Yellow else Red
  }

  /** Badness of a colour bucket: green, then yellow, then red. */
  function ColorRank(color: string): nat
  {
    if color == Green then 0 else if color == Yellow then 1 else 2
  }

  /** A higher score never gets a worse colour. */
  lemma ScoreColorMonotone(a: int, b: int)
    requires a <= b
    ensures ColorRank(GetScoreColor(b)) <= ColorRank(GetScoreColor(a))
  {
  }

  /** `getMetricColor`: only the three exact labels get a colour. */
  function GetMetricColor(rating: string): (r: string)
    ensures r == Green <==> rating == "good"
    ensures r == Yellow <==> rating == "needs-improvement"
    ensures r == Red <==> rating == "poor"
    ensures r == Gray <==> rating != "good" && rating != "needs-improvement" && rating != "poor"
  {
    if rating == "good" then Green
    else if rating == "needs-improvement" then Yellow
    else if rating == "poor" then Red
    else Gray
  }

  /** A metric rated by the collector is never shown yellow: its middle
      label "needs improvement" (with a space) falls to gray, and so does
      "unknown". */
  lemma CollectorRatingNeverYellow(name: string, value: real)
    ensures GetMetricColor(Performance.GetPerformanceRating(name, value)) != Yellow
    ensures Performance.GetPerformanceRating(name, value) == Performance.NeedsImprovement ==>
      GetMetricColor(Performance.GetPerformanceRating(name, value)) == Gray
    ensures Performance.GetPerformanceRating(name, value) == Performance.Unknown ==>
      GetMetricColor(Performance.GetPerformanceRating(name, value)) == Gray
  {
  }

  /** The unit names of `formatBytes`; index 4 and beyond read as undefined. */
  const SizeUnits: seq<string> := ["B", "KB", "MB", "GB"]

  /** The result of `formatBytes`: exact text for zero, otherwise the unit
      chosen; the one-decimal number in front of it is not modelled. */
  datatype FormattedSize = Exact(text: string) | Scaled(unit: string)

  function Pow1024(i: nat): (r: nat)
    ensures r >= 1
  {
    if i == 0 then 1 else 1024 * Pow1024(i - 1)
  }

  /** floor(log_1024(bytes)) for a positive whole number of bytes. */
  function UnitIndex(bytes: nat): (i: nat)
    requires bytes > 0
    ensures Pow1024(i) <= bytes < Pow1024(i + 1)
  {
    if bytes < 1024 then 0 else 1 + UnitIndex(bytes / 1024)
  }

  /** `formatBytes`: zero is "0 B"; otherwise the unit is the power of 1024
      below the size, and sizes of 1024^4 bytes or more index past the
      unit table. */
  function FormatBytes(bytes: nat): (r: FormattedSize)
    ensures bytes == 0 <==> r == Exact("0 B")
    ensures forall k :: 0 <= k < |SizeUnits| ==>
      (r == Scaled(SizeUnits[k]) <==> Pow1024(k) <= bytes < Pow1024(k + 1))
    ensures bytes >= Pow1024(4) <==> r == Scaled("undefined")
  {
    if bytes == 0 then Exact("0 B")
    else
      var i := UnitIndex(bytes);
      assert bytes >= Pow1024(4) ==> i >= 4 by {
        if bytes >= Pow1024(4) { UnitIndexAtLeast(bytes, 4); }
      }
      forall k | 0 <= k < |SizeUnits| && Pow1024(k) <= bytes < Pow1024(k + 1)
        ensures i == k
      {
        UnitIndexAtLeast(bytes, k);
        UnitIndexAtMost(bytes, k);
      }
      Scaled(if i < |SizeUnits| then SizeUnits[i] else "undefined")
  }

  lemma {:induction false} UnitIndexAtMost(bytes: nat, k: nat)
    requires 0 < bytes < Pow1024(k + 1)
    ensures UnitIndex(bytes) <= k
  {
    if bytes >= 1024 {
      assert k > 0;
      assert bytes / 1024 < Pow1024(k);
      UnitIndexAtMost(bytes / 1024, k - 1);
    }
  }

  lemma {:induction false} UnitIndexAtLeast(bytes: nat, k: nat)
    requires bytes >= Pow1024(k)
    ensures UnitIndex(bytes) >= k
  {
    if k > 0 {
      assert bytes >= 1024;
      assert bytes / 1024 >= Pow1024(k - 1);
      UnitIndexAtLeast(bytes / 1024, k - 1);
    }
  }

  /** How many entries the "Recent Metrics" list shows. */
  const RecentCount: nat := 10

  /** `metrics.slice(-10).reverse()`: at most ten entries, newest first. */
  function RecentMetrics(ms: seq<PerformanceMetric>): (r: seq<PerformanceMetric>)
    ensures |r| == if |ms| < RecentCount then |ms| else RecentCount
    ensures forall i :: 0 <= i < |r| ==> r[i] == ms[|ms| - 1 - i]
  {
    Reverse(Last(ms, RecentCount))
  }
}

=== FILE: performance.dfy ===
/** The Web Vitals collector (lib/performance.ts): rates a sample against
    fixed thresholds, builds the stored record, and delivers it to three
    sinks: the gtag script, an HTTP post, and the capped
    `performance-metrics` buffer in local storage. */
module Performance {
  import opened Wrappers
  import opened Sequences
  import opened Entities
  import opened Browser
  import Analytics

  /** The labels this file emits. The middle one is written with a space;
      the consumers of the buffer compare against "needs-improvement". */
  const Good: string := "good"
  const NeedsImprovement: string := "needs improvement"
  const Poor: string := "poor"
  const Unknown: string := "unknown"

  /** Capacity of the `performance-metrics` buffer. */
  const MetricsCap: nat := 50

  function RateAgainst(value: real, good: real, poor: real): string
  {
    if value < good then Good else if value < poor then NeedsImprovement else Poor
  }

  /** `getPerformanceRating`: a total function of (name, value). */
  function GetPerformanceRating(name: string, value: real): (r: string)
    ensures name == "CLS" ==>
      && (r == Good <==> value < 0.1)
      && (r == NeedsImprovement <==> 0.1 <= value < 0.25)
      && (r == Poor <==> 0.25 <= value)
    ensures name == "LCP" ==>
      && (r == Good <==> value < 2500.0)
      && (r == NeedsImprovement <==> 2500.0 <= value < 4000.0)
      && (r == Poor <==> 4000.0 <= value)
    ensures name == "FID" ==>
      && (r == Good <==> value < 100.0)
      && (r == NeedsImprovement <==> 100.0 <= value < 300.0)
      && (r == Poor <==> 300.0 <= value)
    ensures r == Unknown <==> name != "CLS" && name != "LCP" && name != "FID"
  {
    if name == "CLS" then RateAgainst(value, 0.1, 0.25)
    else if name == "LCP" then RateAgainst(value, 2500.0, 4000.0)
    else if name == "FID" then RateAgainst(value, 100.0, 300.0)
    else Unknown
  }

  /** Severity order of the labels: good, then needs improvement, then poor. */
  function Severity(rating: string): nat
  {
    if rating == Good then 0 else if rating == NeedsImprovement then 1 else 2
  }

  /** A worse measurement (a larger value) never gets a better rating. */
  lemma RatingMonotone(name: string, v1: real, v2: real)
    requires v1 <= v2
    ensures Severity(GetPerformanceRating(name, v1)) <= Severity(GetPerformanceRating(name, v2))
  {
  }

  /** A sample as the measurement library reports it. */
  datatype WebVital = WebVital(name: string, value: real, id: string, navigationType: Option<string>)

  /** The stored record built from a sample at time `now`. */
  function BuildMetric(m: WebVital, now: int): (r: PerformanceMetric)
    ensures r.name == m.name && r.value == m.value && r.id == m.id && r.timestamp == now
    ensures r.rating == GetPerformanceRating(m.name, m.value)
    ensures m.navigationType == None ==> r.navigationType == "navigate"
    ensures m.navigationType == Some("") ==> r.navigationType == "navigate"
    ensures m.navigationType.Some? && m.navigationType.value != "" ==> r.navigationType == m.navigationType.value
  {
    PerformanceMetric(
      m.name, m.value, GetPerformanceRating(m.name, m.value), now, m.id,
      if m.navigationType.Some? && m.navigationType.value != "" then m.navigationType.value else "navigate")
  }

  /** The storage sink: read the buffer, push, shift once past 50, write
      back. A buffer that does not parse, or a write that fails
      (`quotaExceeded`), is caught and leaves storage as it was. */
  function StoreMetric(s: Storage, pm: PerformanceMetric, quotaExceeded: bool): (r: Storage)
    ensures SameExcept(s, r, {PerformanceMetricsKey})
    ensures ReadMetrics(s).None? || quotaExceeded ==> r == s
    ensures ReadMetrics(s).Some? && !quotaExceeded ==>
      && ReadMetrics(r).Some?
      && ReadMetrics(r).value == PushShift(ReadMetrics(s).value, pm, MetricsCap)
  {
    match ReadMetrics(s)
    case None => s
    case Some(stored) =>
      if quotaExceeded then s
      else s[PerformanceMetricsKey := MetricsValue(PushShift(stored, pm, MetricsCap))]
  }

  /** Appending to a buffer of at most 50 keeps it at most 50, puts the new
      metric last, and on overflow drops exactly the oldest entry. */
  lemma MetricBufferFifo(s: Storage, pm: PerformanceMetric)
    requires ReadMetrics(s).Some? && |ReadMetrics(s).value| <= MetricsCap
    ensures ReadMetrics(StoreMetric(s, pm, false)).Some?
    ensures var before := ReadMetrics(s).value;
            var after := ReadMetrics(StoreMetric(s, pm, false)).value;
            && |after| <= MetricsCap
            && after[|after| - 1] == pm
            && (|before| < MetricsCap ==> after == before + [pm])
            && (|before| == MetricsCap ==> after == before[1..] + [pm])
  {
    var before := ReadMetrics(s).value;
    var after := PushShift(before, pm, MetricsCap);
    if |before| == MetricsCap {
      assert after == (before + [pm])[1..];
      assert (before + [pm])[1..] == before[1..] + [pm];
    }
  }

  /** `sendToAnalytics`. The gtag call happens only when gtag exists and is
      skipped when it throws (`gtagThrows`, caught); the HTTP post is always
      issued, whatever the consent (its failure is asynchronous and
      caught); the buffer is updated by `StoreMetric`. Nothing raises. */
  function SendToAnalytics(w: Window, m: WebVital, now: int, gtagThrows: bool, quotaExceeded: bool): (r: Window)
    ensures r.gtag == w.gtag
    ensures r.store == StoreMetric(w.store, BuildMetric(m, now), quotaExceeded)
    ensures |r.log| > |w.log| && r.log[..|w.log|] == w.log
    ensures r.log[|r.log| - 1] == MetricPosted(BuildMetric(m, now))
    ensures |r.log| == |w.log| + 2 <==> w.gtag && !gtagThrows
    ensures |r.log| == |w.log| + 2 ==> r.log[|w.log|] == VitalSent(m.name, m.id, GetPerformanceRating(m.name, m.value))
    ensures |r.log| == |w.log| + 1 || |r.log| == |w.log| + 2
  {
    var pm := BuildMetric(m, now);
    var vital := if w.gtag && !gtagThrows then [VitalSent(m.name, m.id, pm.rating)] else [];
    Window(StoreMetric(w.store, pm, quotaExceeded), w.gtag, w.log + vital + [MetricPosted(pm)])
  }

  /** A revoke leaves `window.gtag` in place, so the Web Vitals gtag call
      of the next sample is still made, and the post is still issued. */
  lemma RevokeKeepsVitalsFlowing(w: Window, m: WebVital, now: int, quotaExceeded: bool)
    requires w.gtag
    ensures var revoked := Analytics.RevokeAnalyticsConsent(w);
            var r := SendToAnalytics(revoked, m, now, false, quotaExceeded);
            && !Analytics.HasConsent(r.store)
            && |r.log| == |revoked.log| + 2
            && r.log[|revoked.log|] == VitalSent(m.name, m.id, GetPerformanceRating(m.name, m.value))
  {
  }
}

=== FILE: sequences.dfy ===
/** Sequence helpers shared by the bounded buffers and the list views:
    `slice(-n)`, `push` followed by one `shift`, `reverse`, and
    duplicate-freedom. */
module Sequences {

  /** The last `n` elements of `s`, or all of `s` when it is shorter
      (JavaScript's `s.slice(-n)` for a positive `n`). */
  function Last<T>(s: seq<T>, n: nat): (r: seq<T>)
    ensures |r| == if |s| < n then |s| else n
    ensures r == s[|s| - |r|..]
  {
    if |s| <= n then s else s[|s| - n..]
  }

  /** What `Last` keeps depends only on the newest `n` elements. */
  lemma LastIgnoresOlder<T>(a: seq<T>, b: seq<T>, n: nat)
    requires |b| >= n
    ensures Last(a + b, n) == Last(b, n)
  {
    assert (a + b)[|a + b| - n..] == b[|b| - n..];
  }

  /** Appends `x`; when the result is longer than `cap`, drops exactly one
      element from the front (`push` then a single `shift`). */
  function PushShift<T>(s: seq<T>, x: T, cap: nat): (r: seq<T>)
    requires cap > 0
    ensures |r| == if |s| + 1 > cap then |s| else |s| + 1
    ensures r == (s + [x])[|s| + 1 - |r|..]
  {
    var pushed := s + [x];
    if |pushed| > cap then pushed[1..] else pushed
  }

  function Reverse<T>(s: seq<T>): (r: seq<T>)
    ensures |r| == |s|
    ensures forall i :: 0 <= i < |s| ==> r[i] == s[|s| - 1 - i]
  {
    if s == [] then [] else [s[|s| - 1]] + Reverse(s[..|s| - 1])
  }

  predicate Distinct<T(==)>(s: seq<T>)
  {
    forall i, j :: 0 <= i < j < |s| ==> s[i] != s[j]
  }

  function Elements<T(==)>(s: seq<T>): set<T>
  {
    set x | x in s
  }

  /** A duplicate-free sequence has as many distinct elements as entries. */
  lemma {:induction false} DistinctCard<T>(s: seq<T>)
    requires Distinct(s)
    ensures |Elements(s)| == |s|
    decreases |s|
  {
    if s != [] {
      var init := s[..|s| - 1];
      assert Distinct(init);
      DistinctCard(init);
      assert Elements(s) == Elements(init) + {s[|s| - 1]};
      assert s[|s| - 1] !in Elements(init);
    }
  }
}

=== FILE: trackers.dfy ===
/** The once-only trackers of lib/analytics.ts: scroll depth fires each of
    25/50/75/90/100 % at most once, time on page each of 30/60/120/300 s
    at most once. Both share one `forEach` over their marks. */
module Trackers {
  import opened Wrappers
  import opened Sequences
  import opened Browser
  import Analytics

  const ScrollThresholds: seq<nat> := [25, 50, 75, 90, 100]
  const TimeIntervals: seq<nat> := [30, 60, 120, 300]

  /** Marks fired by one pass, in firing order, and the tracked set after it. */
  datatype Firing = Firing(fired: seq<nat>, tracked: set<nat>)

  /** The `forEach` both trackers run: in list order, each mark at or below
      `level` that is not yet tracked is added to the set and fired. */
  function Fire(marks: seq<nat>, level: int, tracked: set<nat>): (r: Firing)
    ensures r.tracked == tracked + Elements(r.fired)
    ensures forall i :: 0 <= i < |r.fired| ==> r.fired[i] in marks && r.fired[i] <= level && r.fired[i] !in tracked
    ensures forall m :: m in marks && m <= level ==> m in r.tracked
    ensures Distinct(r.fired)
    decreases |marks|
  {
    if marks == [] then Firing([], tracked)
    else
      var m := marks[0];
      if level >= m && m !in tracked then
        var rest := Fire(marks[1..], level, tracked + {m});
        Firing([m] + rest.fired, rest.tracked)
      else
        Fire(marks[1..], level, tracked)
  }

  function DigitChar(d: nat): char
    requires d < 10
  {
    "0123456789"[d]
  }

  function NatToString(n: nat): string
  {
    if n < 10 then [DigitChar(n)] else NatToString(n / 10) + [DigitChar(n % 10)]
  }

  /** The event announcing `mark`: `trackEvent(action, category,
      "<mark><suffix>", mark)`. */
  function MarkEvent(action: string, category: string, suffix: string, mark: nat): Event
  {
    GtagEvent(action, category, Some(NatToString(mark) + suffix), Some(mark))
  }

  /** One announcement per fired mark, in firing order. */
  function EmitMarks(w: Window, fired: seq<nat>, action: string, category: string, suffix: string): (r: Window)
    ensures r.store == w.store && r.gtag == w.gtag
    ensures !w.gtag ==> r == w
    ensures w.gtag ==> |r.log| == |w.log| + |fired| && r.log[..|w.log|] == w.log
    ensures w.gtag ==> forall i :: 0 <= i < |fired| ==>
      r.log[|w.log| + i] == MarkEvent(action, category, suffix, fired[i])
    decreases |fired|
  {
    if fired == [] then w
    else
      var next := Analytics.TrackEvent(w, action, category, Some(NatToString(fired[0]) + suffix), Some(fired[0]));
      EmitMarks(next, fired[1..], action, category, suffix)
  }

  /** Emitting a duplicate-free batch of marks, none of them in `before`:
      nothing but the log changes, and with gtag loaded one event is
      appended per newly tracked mark, announcing it. */
  function Announce(w: Window, before: set<nat>, fired: seq<nat>, action: string, category: string, suffix: string): (r: Window)
    requires Distinct(fired)
    requires forall i :: 0 <= i < |fired| ==> fired[i] !in before
    ensures r.store == w.store && r.gtag == w.gtag
    ensures !w.gtag ==> r == w
    ensures w.gtag ==> |r.log| == |w.log| + |(before + Elements(fired)) - before|
    ensures w.gtag ==> r.log[..|w.log|] == w.log
    ensures w.gtag ==> forall m :: m in (before + Elements(fired)) - before ==>
      MarkEvent(action, category, suffix, m) in r.log[|w.log|..]
  {
    var r := EmitMarks(w, fired, action, category, suffix);
    if w.gtag then
      assert (before + Elements(fired)) - before == Elements(fired);
      DistinctCard(fired);
      assert forall m :: m in Elements(fired) ==> MarkEvent(action, category, suffix, m) in r.log[|w.log|..] by {
        forall m | m in Elements(fired)
          ensures MarkEvent(action, category, suffix, m) in r.log[|w.log|..]
        {
          var i :| 0 <= i < |fired| && fired[i] == m;
          assert r.log[|w.log|..][i] == r.log[|w.log| + i];
        }
      }
      r
    else r
  }

  // Scroll depth

  datatype ScrollState = ScrollState(maxScroll: int, tracked: set<nat>)

  const ScrollStart := ScrollState(0, {})

  /** One scroll event at an integer percentage: thresholds are examined
      only when a new maximum is reached. */
  function OnScroll(st: ScrollState, percent: int): (r: (ScrollState, seq<nat>))
    ensures r.0.maxScroll >= st.maxScroll
    ensures percent <= st.maxScroll ==> r.0 == st && r.1 == []
    ensures percent > st.maxScroll ==> r.0.maxScroll == percent
    ensures percent > st.maxScroll ==> forall th :: th in ScrollThresholds && th <= percent ==> th in r.0.tracked
    ensures r.0.tracked == st.tracked + Elements(r.1)
    ensures forall i :: 0 <= i < |r.1| ==> r.1[i] in ScrollThresholds && r.1[i] !in st.tracked
    ensures forall i :: 0 <= i < |r.1| ==> r.1[i] <= percent
    ensures Distinct(r.1)
  {
    if percent > st.maxScroll then
      var f := Fire(ScrollThresholds, percent, st.tracked);
      (ScrollState(percent, f.tracked), f.fired)
    else (st, [])
  }

  /** The scroll listener with its effect on the page: the storage is
      untouched, and with gtag loaded exactly one event is appended per
      newly tracked threshold, announcing it. */
  function HandleScroll(st: ScrollState, w: Window, percent: int): (r: (ScrollState, Window))
    ensures r.0 == OnScroll(st, percent).0
    ensures r.1.store == w.store && r.1.gtag == w.gtag
    ensures !w.gtag ==> r.1 == w
    ensures w.gtag ==> |r.1.log| == |w.log| + |r.0.tracked - st.tracked|
    ensures w.gtag ==> r.1.log[..|w.log|] == w.log
    ensures w.gtag ==> forall th :: th in r.0.tracked - st.tracked ==>
      MarkEvent("scroll", "Scroll Depth", "%", th) in r.1.log[|w.log|..]
  {
    var step := OnScroll(st, percent);
    (step.0, Announce(w, st.tracked, step.1, "scroll", "Scroll Depth", "%"))
  }

  /** A revoke writes "false" and sends the consent update, but removes no
      listener and leaves `window.gtag` in place: an installed scroll
      tracker still reports every new threshold afterwards. */
  lemma RevokeKeepsScrollTracking(st: ScrollState, w: Window, percent: int)
    requires w.gtag
    ensures var revoked := Analytics.RevokeAnalyticsConsent(w);
            var r := HandleScroll(st, revoked, percent);
            && !Analytics.HasConsent(r.1.store)
            && |r.1.log| == |revoked.log| + |r.0.tracked - st.tracked|
            && forall th :: th in r.0.tracked - st.tracked ==>
                 MarkEvent("scroll", "Scroll Depth", "%", th) in r.1.log[|revoked.log|..]
  {
  }

  /** The tracker's state is determined by its maximum: exactly the
      thresholds at or below it are tracked. */
  ghost predicate ScrollInvariant(st: ScrollState)
  {
    forall th :: th in st.tracked <==> th in ScrollThresholds && th <= st.maxScroll
  }

  /** A run of scroll events from a state: the final state and every
      threshold fired along the way, in order. */
  function ScrollRun(st: ScrollState, percents: seq<int>): (ScrollState, seq<nat>)
    decreases |percents|
  {
    if percents == [] then (st, [])
    else
      var (next, fired) := OnScroll(st, percents[0]);
      var (last, rest) := ScrollRun(next, percents[1..]);
      (last, fired + rest)
  }

  /** Over any run of scroll events, no threshold fires twice, none that
      was already tracked fires, and the invariant is kept. */
  lemma {:induction false} ScrollFiresEachThresholdOnce(st: ScrollState, percents: seq<int>)
    requires ScrollInvariant(st)
    ensures var (last, fired) := ScrollRun(st, percents);
            && ScrollInvariant(last)
            && last.maxScroll >= st.maxScroll
            && Distinct(fired)
            && (forall i :: 0 <= i < |fired| ==> fired[i] in ScrollThresholds && fired[i] !in st.tracked)
            && last.tracked == st.tracked + Elements(fired)
    decreases |percents|
  {
    if percents != [] {
      var (next, fired) := OnScroll(st, percents[0]);
      assert ScrollInvariant(next);
      ScrollFiresEachThresholdOnce(next, percents[1..]);
      var (last, rest) := ScrollRun(next, percents[1..]);
      DistinctAppend(fired, rest, st.tracked);
    }
  }

  lemma DistinctAppend(a: seq<nat>, b: seq<nat>, tracked: set<nat>)
    requires Distinct(a) && Distinct(b)
    requires forall i :: 0 <= i < |b| ==> b[i] !in tracked + Elements(a)
    ensures Distinct(a + b)
  {
    forall i, j | 0 <= i < j < |a + b|
      ensures (a + b)[i] != (a + b)[j]
    {
      if j >= |a| && i < |a| {
        assert (a + b)[i] in Elements(a);
      }
    }
  }

  // Time on page

  datatype TimeState = TimeState(tracked: set<nat>)

  const TimeStart := TimeState({})

  /** `checkTime` with the whole seconds spent so far. */
  function CheckTime(st: TimeState, timeSpent: int): (r: (TimeState, seq<nat>))
    ensures forall iv :: iv in TimeIntervals && iv <= timeSpent ==> iv in r.0.tracked
    ensures r.0.tracked == st.tracked + Elements(r.1)
    ensures forall i :: 0 <= i < |r.1| ==> r.1[i] in TimeIntervals && r.1[i] <= timeSpent && r.1[i] !in st.tracked
    ensures Distinct(r.1)
  {
    var f := Fire(TimeIntervals, timeSpent, st.tracked);
    (TimeState(f.tracked), f.fired)
  }

  /** The interval callback with its effect on the page: one announcement
      per newly tracked interval. */
  function HandleTimeCheck(st: TimeState, w: Window, timeSpent: int): (r: (TimeState, Window))
    ensures r.0 == CheckTime(st, timeSpent).0
    ensures r.1.store == w.store && r.1.gtag == w.gtag
    ensures !w.gtag ==> r.1 == w
    ensures w.gtag ==> |r.1.log| == |w.log| + |r.0.tracked - st.tracked|
    ensures w.gtag ==> r.1.log[..|w.log|] == w.log
    ensures w.gtag ==> forall iv :: iv in r.0.tracked - st.tracked ==>
      MarkEvent("timing", "Time on Page", "s", iv) in r.1.log[|w.log|..]
  {
    var step := CheckTime(st, timeSpent);
    (step.0, Announce(w, st.tracked, step.1, "timing", "Time on Page", "s"))
  }

  function TimeRun(st: TimeState, checks: seq<int>): (TimeState, seq<nat>)
    decreases |checks|
  {
    if checks == [] then (st, [])
    else
      var (next, fired) := CheckTime(st, checks[0]);
      var (last, rest) := TimeRun(next, checks[1..]);
      (last, fired + rest)
  }

  /** Over any run of checks, no interval fires twice, and every interval
      at or below some checked time has been tracked. */
  lemma {:induction false} TimeFiresEachIntervalOnce(st: TimeState, checks: seq<int>)
    ensures var (last, fired) := TimeRun(st, checks);
            && Distinct(fired)
            && (forall i :: 0 <= i < |fired| ==> fired[i] in TimeIntervals && fired[i] !in st.tracked)
            && last.tracked == st.tracked + Elements(fired)
            && (forall k, iv :: 0 <= k < |checks| && iv in TimeIntervals && iv <= checks[k] ==> iv in last.tracked)
    decreases |checks|
  {
    if checks != [] {
      var (next, fired) := CheckTime(st, checks[0]);
      TimeFiresEachIntervalOnce(next, checks[1..]);
      var (last, rest) := TimeRun(next, checks[1..]);
      DistinctAppend(fired, rest, st.tracked);
      forall k, iv | 0 <= k < |checks| && iv in TimeIntervals && iv <= checks[k]
        ensures iv in last.tracked
      {
        if k > 0 {
          assert checks[k] == checks[1..][k - 1];
        }
      }
    }
  }
}

=== FILE: wrappers.dfy ===
/** Optional values: the model's stand-in for `null`/`undefined` and for
    an operation whose JavaScript counterpart throws. */
module Wrappers {

  datatype Option<T> = None | Some(value: T)
}
